=== FILE: README.md ===
# Puyo-Puyo game-state engine in Dafny

This project models the rules engine of a browser Puyo-Puyo game. The game
uses a 12 x 6 field of cells, each empty or holding a puyo of one of four
colours. A falling pair is a parent puyo plus a child puyo attached on one
side. The pair spawns at the top centre, moves one cell at a time only when
both target cells are on the field and empty, and rotates clockwise with a
wall kick one column left or right. When it can no longer fall it is written
into the field. The chain loop then erases every same-coloured 4-connected
region of at least four puyos, scores ten points per erased puyo times the
chain multiplier, lets every column fall, and repeats. The game is over when
the next pair does not fit at the top.

Modules, in dependency order:

- `Board` (board.dfy): the field, cells, positions, single-cell update, columns and puyo count.
- `Pairs` (pairs.dfy): the pair, JavaScript's truncating remainder, `canMove`, `createPuyoPair`, `movePair`, `rotatePair` with wall kicks, `isGameOver` and `fixPairToField`.
- `Groups` (groups.dfy): `findConnected`, modelled as the source's explicit-stack flood fill inside a row-major scan.
- `Gravity` (gravity.dfy): `dropField`, modelled as the source's bottom-up compaction of each column.
- `Chain` (chain.dfy): `eraseGroups`, scoring, and the chain loop as a pure function of field, chain number and score.
- `Game` (game.dfy): the state between ticks: new game, drop tick with landing, and key presses.
- `FirstPass` (first_pass.dfy): a concrete landing on which the chain loop, as written, leaves an erasable group on the field (see Findings).

The engine's answer to "which groups are there" is specified independently
of the scan. A group (`Groups.IsGroup`) is a sequence of distinct cells of
one colour, connected cell by cell, with no same-coloured neighbour left
outside it. `FindConnected` returns pairwise disjoint groups and misses no
region of at least the threshold size. `DropField` is compared with a
reference column shape (`Gravity.SettledColumn`: blanks above the column's
puyos in order). The chain loop is summarised by one predicate,
`Chain.Outcome`, that every run satisfies.

## Model

| member | source | states |
|---|---|---|
| Board.CreateEmptyField | src/app/page.tsx:73-75 | The new field has 12 rows of 6 cells, every cell is empty, and it holds no puyo. |
| Board.ClearOneCount | src/app/page.tsx:190 | Emptying one occupied cell lowers the field's puyo count by exactly one. |
| Board.PlaceOneCount | src/app/page.tsx:155-156 | Writing a puyo into an empty cell raises the field's puyo count by exactly one. |
| Pairs.JsRem | src/app/page.tsx:98 | As in JavaScript, the remainder lies strictly between -b and b and never has the opposite sign to the dividend. For a non-negative dividend it is the mathematical remainder. |
| Pairs.JsRemDivision | src/app/page.tsx:98 | The remainder is the dividend minus b times the quotient truncated toward zero. |
| Pairs.JsRemUnique | src/app/page.tsx:98 | Those properties determine the remainder: any value with a whole quotient, below b in magnitude and of the dividend's sign, equals JsRem. |
| Pairs.JsRemOdd | src/app/page.tsx:98 | Negating the dividend negates the remainder, so -5 % 4 is -1. |
| Pairs.CanMove | src/app/page.tsx:90-94 | The placement test holds exactly when every listed position is inside the 12 x 6 field and empty. |
| Pairs.Offset | src/app/page.tsx:100-106 | The child's offset from the parent is one step along exactly one axis. Rotations 1, 2 and 3 put it right, below and left, and every other value falls to the default, above. |
| Pairs.OffsetTurnsClockwise | src/app/page.tsx:98-106 | For rotations 0 to 3, the next rotation turns the child's offset a quarter turn clockwise. |
| Pairs.CreatePuyoPair | src/app/page.tsx:77-88 | A new pair has its parent at (0, 3) and its child directly below at (1, 3), carries the two given colours, and its rotation value names the side its child is on. |
| Pairs.MovePair | src/app/page.tsx:139-151 | A move is atomic. If both shifted cells are free, the pair is shifted; otherwise it is returned unchanged. Colours and rotation are kept, and a pair on free cells stays on free cells. |
| Pairs.MoveBack | src/app/page.tsx:139-151 | A successful move followed by the opposite move gives back the original pair. |
| Pairs.RotatePair | src/app/page.tsx:96-137 | A rotation either leaves the pair unchanged, or gives a pair on free cells whose rotation is the next value and whose child sits on the side it names. The parent stays on its row and moves at most one column. Colours are kept. |
| Pairs.RotateTakesFirstPlaceable | src/app/page.tsx:107-136 | A rotation yields the first placeable candidate among: turn in place, turn and kick left, turn and kick right. If none fits, it yields the pair itself. |
| Pairs.RotateInPlace | src/app/page.tsx:107-115 | When the parent's cell and the cell the child turns into are free, the parent stays put and the child turns one step. |
| Pairs.FourRotationsRestore | src/app/page.tsx:96-137 | With the parent and its four neighbours free, four rotations return the pair exactly to where it started. |
| Pairs.IsGameOver | src/app/page.tsx:210-212 | The game is over exactly when the pair's parent or child cell is off the field or occupied. |
| Pairs.SpawnBlocked | src/app/page.tsx:210-212 | A freshly spawned pair is blocked exactly when one of the two spawn cells (0, 3) and (1, 3) is occupied. |
| Pairs.FixPairToField | src/app/page.tsx:153-158 | The landed field has the child's colour at the child's cell and the parent's colour at the parent's cell. Every other cell is unchanged. A pair landing on two free cells adds exactly two puyos. |
| Groups.Flood | src/app/page.tsx:168-179 | The flood fill only adds cells to the visited set. The cells it adds, in the order added, are distinct, all of the seed's colour and each adjacent to an earlier one. Every same-coloured neighbour of an added cell ends up visited. |
| Groups.FloodIsGroup | src/app/page.tsx:166-179 | The flood from an unvisited puyo yields a whole region that starts at the seed and contains no previously visited cell. |
| Groups.Scan | src/app/page.tsx:164-182 | The row-major scan emits only regions of at least min cells, pairwise disjoint. Every puyo of the field is either in an emitted group or in a region smaller than min. |
| Groups.FindConnected | src/app/page.tsx:161-184 | Every returned group is a whole same-coloured connected region of at least min puyos, and no two groups share a cell. An empty field has no group. |
| Groups.FindConnectedComplete | src/app/page.tsx:161-184 | Every same-coloured connected region of at least min puyos is found: each of its cells lies in a returned group. |
| Gravity.DropColumn | src/app/page.tsx:198-205 | The compacted column has the same length and the same puyos in the same top-to-bottom order, packed below the empty cells. |
| Gravity.DropField | src/app/page.tsx:196-208 | Dropping keeps the field's 12 x 6 shape. Each column of the result is that column compacted on its own, with its puyos fallen to the bottom in order. |
| Gravity.DropFieldSettles | src/app/page.tsx:196-208 | After gravity nothing would fall. Each column keeps its puyos in order, and the field keeps its puyo count. |
| Gravity.SettledIffFixed | src/app/page.tsx:196-208 | A field is settled exactly when gravity leaves it unchanged. |
| Gravity.DropFieldIdempotent | src/app/page.tsx:196-208 | Dropping twice is dropping once. |
| Chain.EraseGroups | src/app/page.tsx:186-194 | A cell is empty after the erase exactly when it lies in some group; every other cell is unchanged. |
| Chain.EraseGroupsCount | src/app/page.tsx:186-194 | Erasing disjoint groups of distinct puyos lowers the count by the sum of the group sizes. |
| Chain.PointsIsProduct | src/app/page.tsx:265 | A round's points are the number of puyos erased times the multiplier times ten. |
| Chain.ChainStep | src/app/page.tsx:264-273 | One round erases exactly the groups found on the field and then lets every column fall. It adds the groups' total size times the chain multiplier (chain number plus one) times ten to the score. The result is a settled field with at least four fewer puyos, and the chain number goes up by one. |
| Chain.NoRoundOutcome | src/app/page.tsx:252-258 | A field with no group ends the loop: the field is dropped once and the chain number and score are kept. |
| Chain.RoundOutcome | src/app/page.tsx:261-276 | One round followed by any outcome of the rest of the loop is an outcome of the whole loop. |
| Chain.Resolve | src/app/page.tsx:249-278 | The loop ends on a settled field. It plays a round exactly when the field has a group. With no round, it only drops the field and keeps the score. After a round, no group is left. Each round erases at least four puyos. The score gained lies between paying every erased puyo at the first round's multiplier and paying it at the last round's. |
| Chain.PointsGained | src/app/page.tsx:252-273 | From chain 0 the loop gains points exactly when the field has a group. With no group it returns the dropped field and the same score. After a round, or from a settled field, no group is left. |
| Chain.ResolveAtFixpoint | src/app/page.tsx:252-258 | On a settled field with no group, the loop returns the field, chain number and score unchanged. |
| Chain.SettleLanding | src/app/page.tsx:232-278 | Settling a landed field with gravity applied first leaves a settled field with no group, at least four puyos fewer per chain round, and a score that does not drop. |
| Chain.SettleLandingAgrees | src/app/page.tsx:249-278 | On an already settled landed field, settling with gravity first is exactly the loop as written. |
| Chain.SettleLandingErasesGroup | src/app/page.tsx:261-265 | If the dropped landed field holds a group, settling plays at least one round and gains at least forty points. |
| Game.NewGame | src/app/page.tsx:215-220 | A new game has an empty field, score 0, and is running. The falling pair and the next pair are freshly spawned pairs with the first and second pair of colours, and the falling pair sits on free cells. |
| Game.DropTick | src/app/page.tsx:226-243 | A tick keeps the state valid and leaves a finished game alone. If the pair can fall, only the pair moves down one row. Otherwise the tick is exactly the landing `Land`: the next pair becomes the falling pair and the new colours become the next pair. The score does not drop and the count grows by at most two. The game is over exactly when the new falling pair does not fit. |
| Game.Land | src/app/page.tsx:232-258 | A landing writes the pair into the field and ends with the field and score of the chain loop run from chain 0 on that landed field. It keeps the state valid and brings in the next pair. The game is over exactly when the new falling pair does not fit. If the landed field has no group, the field is only dropped and the score kept. If it has one, the score rises. A group can be left behind only when no round was played and the landed field was not settled. |
| Game.LandGravityFirst | src/app/page.tsx:232-258 | The corrected landing ends with the field and score of the gravity-first settlement of the landed field, and leaves no group on the field. It keeps the state valid and brings in the next pair. The score does not drop and the count grows by at most two. The game is over exactly when the new falling pair does not fit. Unlike `Land`, it may score on a landed field with no group, and may score nothing on one with a group (see Findings). |
| Game.LandingsAgree | src/app/page.tsx:232-258 | When the landed field is already settled, the corrected landing and the landing as written give the same state. |
| Game.PressKey | src/app/page.tsx:307-316 | A key press changes only the falling pair and keeps its colours and the state's validity. It does nothing once the game is over. Otherwise Left, Right and Down apply `movePair` by (0, -1), (0, 1) and (1, 0), and Rotate applies `rotatePair`. |
| FirstPass.FirstPassMissesGroup | src/app/page.tsx:249-258 | On a concrete landing the loop as written plays no round and scores nothing, yet leaves a group of four on the field. |
| FirstPass.TickLeavesGroup | src/app/page.tsx:226-258 | The same landing as a valid running game state: the tick lands the pair, scores nothing, and leaves a group of four on the field. |
| FirstPass.SettleLandingErases | src/app/page.tsx:232-265 | On the same landing, settling with gravity first plays at least one round and scores at least forty points. |

`Game.Valid` is the invariant every state keeps. The field has the right
shape and nothing on it would fall. Both pairs have their child on the side
their rotation names. While the game runs, the falling pair sits on free
cells. The field may still hold an erasable group after a landing (see
Findings).

## Left out

- Sound effects (src/app/page.tsx:7-33), rendering, and the `erasing` highlight state. They do not affect the field or the score.
- React scheduling: the interval timer, the `setTimeout` delays between erase, drop and the next round, and effect ordering. The chain loop is modelled as the synchronous sequence its steps describe. The landing effect also re-runs when the first erase writes the field (line 267). That run starts at chain 0 on the erased field, finds no group there, and so drops the field and spawns the next pair about 400 ms into the chain. The first run keeps going with its remaining rounds, and at its end `setPair(nextPair)` (line 255) moves that pair back to its spawn cells and draws another next pair. The game-over effect (lines 284-290) tests the pair spawned by the re-run against the field as the first round leaves it. A chain whose first round leaves (0,3) or (1,3) occupied therefore ends the game even when later rounds clear those cells, whereas `Game.Land` tests only the final field. The model plays a whole chain before the next pair appears and does not model this interleaving.
- `Math.random` in `getRandomColor`: colours are parameters of `CreatePuyoPair`, `NewGame` and `DropTick`.
- Pause and the Escape key (src/app/page.tsx:295-306), and the mapping of keyboard key names to the `Game.Key` values. Reset (src/app/page.tsx:326-333) is not modelled. Its own setter calls build the state `Game.NewGame` describes, but it leaves `paused` as it was. A chain still running keeps its timeouts, which later write the old field back and add points to the new score (lines 254 and 265-271).
- Key presses while the chain loop runs are ignored by the source (line 307). The model settles a landing in one step, so there is no such in-between state.
- The visited matrix of `findConnected` is a set of positions. The field is an immutable sequence, not copied arrays.
- `FixPairToField` and `EraseGroups` require their cells to be on the field. JavaScript would index outside the array, and every caller guarantees this.
- Game.DropTick: the game-over check runs right after the landing, on the new falling pair. The source checks it in a separate effect when the pair changes.
- Chain.Resolve: the field count is a mathematical integer and the score is unbounded. JavaScript numbers do not overflow at these sizes.

## Findings

| source | as written | input that shows it | evidently intended | confidence | as-written member | corrected member |
|---|---|---|---|---|---|---|
| src/app/page.tsx:232-258 | After a landing the chain loop looks for groups on the field before gravity. When none is found it drops the field once and stops. A half of the pair left hanging then falls without the field being searched again. | Reds at (11,0), (11,1) and (11,2); yellow at (11,4); a horizontal pair lands with red parent at (10,3) and blue child at (10,4). The red half falls to (11,3) and completes a row of four reds that stays on the field until the next landing's search. | Gravity before the first search, so that no erasable group is left after a landing. | not executed | FirstPass.TickLeavesGroup (on Game.Land) | Game.LandGravityFirst |

The game model follows the code: `Game.DropTick` lands through `Game.Land`,
which runs `Chain.Resolve` on the landed field as it stands. The corrected
landing `Game.LandGravityFirst` is proved never to leave a group, but the
tick does not use it. `Game.LandingsAgree` and `Chain.SettleLandingAgrees`
show that the two landings differ only when the landed field is not settled,
that is, when one half of the pair hangs in the air. In that case the two
can differ in both directions. `FirstPass.SettleLandingErases` shows that the
row of four above scores under the corrected landing, although the landed
field has no group. Conversely, a group that exists only while a half hangs
is erased as written but not by the corrected landing. For example: reds at
(7,1), (8,1) and (9,1) above blues at (10,1) and (11,1), yellows at (10,3)
and (11,3), and a pair that lands with a red parent at (9,2) over an empty
column and a green child at (9,3). The loop as written erases the four reds
at (7,1), (8,1), (9,1) and (9,2). With gravity first, the red falls to
(11,2) and no group is left to erase.

Besides the compaction after each erase, the loop drops the field once
more when it finds no group (src/app/page.tsx:254). `Chain.Resolve` includes
that final drop.

=== FILE: board.dfy ===
/** The playing field: a fixed grid of FieldRows x FieldCols cells, row 0 at the
    top (the spawn row), each cell empty or holding one puyo of some colour. */
module Board {

  const FieldRows: int := 12
  const FieldCols: int := 6

  /** The four colours a puyo can have. */
  datatype Color = Red | Blue | Green | Yellow

  /** A cell is empty (null in the game) or holds one puyo. */
  datatype Cell = Empty | Puyo(color: Color)

  /** A (row, column) coordinate. Coordinates are plain integers: a wall kick
      can propose column -1 or FieldCols, which the placement test rejects. */
  datatype Pos = Pos(row: int, col: int)

  /** The field, row-major. */
  type Field = seq<seq<Cell>>

  predicate WellFormed(f: Field) {
    |f| == FieldRows && forall r | 0 <= r < |f| :: |f[r]| == FieldCols
  }

  predicate InBounds(p: Pos) {
    0 <= p.row < FieldRows && 0 <= p.col < FieldCols
  }

  function At(f: Field, p: Pos): Cell
    requires WellFormed(f) && InBounds(p)
  {
    f[p.row][p.col]
  }

  /** An all-empty field, the state of a fresh game. */
  function CreateEmptyField(): (f: Field)
    ensures WellFormed(f)
    ensures forall p {:trigger At(f, p)} | InBounds(p) :: At(f, p) == Empty
    ensures Count(f) == 0
  {
    var f := seq(FieldRows, _ => seq(FieldCols, _ => Empty));
    EmptyFieldCount(f);
    f
  }

  /** The field with the single cell p replaced by v. */
  function Set(f: Field, p: Pos, v: Cell): (g: Field)
    requires WellFormed(f) && InBounds(p)
    ensures WellFormed(g)
    ensures At(g, p) == v
    ensures forall q {:trigger At(g, q)} | InBounds(q) && q != p :: At(g, q) == At(f, q)
  {
    f[p.row := f[p.row][p.col := v]]
  }

  /** Column c read from top to bottom. */
  function Column(f: Field, c: int): (col: seq<Cell>)
    requires WellFormed(f) && 0 <= c < FieldCols
    ensures |col| == FieldRows
    ensures forall r | 0 <= r < FieldRows :: col[r] == f[r][c]
  {
    seq(FieldRows, r requires 0 <= r < FieldRows => f[r][c])
  }

  /** Two well-formed fields with the same columns are the same field. */
  lemma ColumnsDetermineField(f: Field, g: Field)
    requires WellFormed(f) && WellFormed(g)
    requires forall c | 0 <= c < FieldCols :: Column(f, c) == Column(g, c)
    ensures f == g
  {
    forall r | 0 <= r < FieldRows
      ensures f[r] == g[r]
    {
      forall c | 0 <= c < FieldCols
        ensures f[r][c] == g[r][c]
      {
        assert Column(f, c)[r] == Column(g, c)[r];
      }
    }
  }

  /** The puyos of a sequence of cells, in order, with the gaps removed. */
  function Puyos(s: seq<Cell>): (t: seq<Cell>)
    ensures |t| <= |s|
    ensures forall i | 0 <= i < |t| :: t[i] != Empty
  {
    if |s| == 0 then []
    else (if s[0] == Empty then [] else [s[0]]) + Puyos(s[1..])
  }

  lemma {:induction false} PuyosAppend(a: seq<Cell>, b: seq<Cell>)
    ensures Puyos(a + b) == Puyos(a) + Puyos(b)
  {
    if |a| == 0 {
      assert a + b == b;
    } else {
      assert (a + b)[1..] == a[1..] + b;
      PuyosAppend(a[1..], b);
    }
  }

  /** Erasing one puyo of a sequence removes exactly one from its count. */
  lemma {:induction false} PuyosClearOne(s: seq<Cell>, i: int)
    requires 0 <= i < |s| && s[i] != Empty
    ensures |Puyos(s[i := Empty])| == |Puyos(s)| - 1
  {
    if i > 0 {
      assert s[i := Empty][1..] == s[1..][i - 1 := Empty];
      PuyosClearOne(s[1..], i - 1);
    } else {
      assert s[i := Empty][1..] == s[1..];
    }
  }

  /** The number of puyos in the first k columns. */
  function CountColumns(f: Field, k: int): nat
    requires WellFormed(f) && 0 <= k <= FieldCols
    // The measure names f as well as k so that calls with a literal k, such
    // as CountColumns(f, FieldCols), are not unrolled column by column.
    decreases k, f
  {
    if k == 0 then 0 else CountColumns(f, k - 1) + |Puyos(Column(f, k - 1))|
  }

  /** The number of puyos on the field. */
  function Count(f: Field): nat
    requires WellFormed(f)
  {
    CountColumns(f, FieldCols)
  }

  lemma {:induction false} EmptyColumnsCount(f: Field, k: int)
    requires WellFormed(f) && 0 <= k <= FieldCols
    requires forall p {:trigger At(f, p)} | InBounds(p) :: At(f, p) == Empty
    ensures CountColumns(f, k) == 0
  {
    if k > 0 {
      EmptyColumnsCount(f, k - 1);
      var col := Column(f, k - 1);
      forall r | 0 <= r < |col|
        ensures col[r] == Empty
      {
        assert At(f, Pos(r, k - 1)) == Empty;
      }
      EmptyCellsHaveNoPuyos(col);
    }
  }

  lemma {:induction false} EmptyCellsHaveNoPuyos(s: seq<Cell>)
    requires forall i | 0 <= i < |s| :: s[i] == Empty
    ensures Puyos(s) == []
  {
    if |s| > 0 {
      EmptyCellsHaveNoPuyos(s[1..]);
    }
  }

  lemma EmptyFieldCount(f: Field)
    requires WellFormed(f)
    requires forall p {:trigger At(f, p)} | InBounds(p) :: At(f, p) == Empty
    ensures Count(f) == 0
  {
    EmptyColumnsCount(f, FieldCols);
  }

  /** Fields whose first k columns agree have the same count over them. */
  lemma {:induction false} CountColumnsAgree(f: Field, g: Field, k: int)
    requires WellFormed(f) && WellFormed(g) && 0 <= k <= FieldCols
    requires forall c | 0 <= c < k :: |Puyos(Column(f, c))| == |Puyos(Column(g, c))|
    ensures CountColumns(f, k) == CountColumns(g, k)
  {
    if k > 0 {
      CountColumnsAgree(f, g, k - 1);
    }
  }

  /** Emptying an occupied cell lowers the puyo count by exactly one. */
  lemma ClearOneCount(f: Field, p: Pos)
    requires WellFormed(f) && InBounds(p) && At(f, p) != Empty
    ensures Count(Set(f, p, Empty)) == Count(f) - 1
  {
    ClearOneColumns(f, p, FieldCols);
  }

  lemma {:induction false} ClearOneColumns(f: Field, p: Pos, k: int)
    requires WellFormed(f) && InBounds(p) && At(f, p) != Empty
    requires 0 <= k <= FieldCols
    ensures CountColumns(Set(f, p, Empty), k) == CountColumns(f, k) - (if p.col < k then 1 else 0)
  {
    var g := Set(f, p, Empty);
    if k > 0 {
      ClearOneColumns(f, p, k - 1);
      if k - 1 == p.col {
        assert Column(g, k - 1) == Column(f, k - 1)[p.row := Empty];
        PuyosClearOne(Column(f, k - 1), p.row);
      } else {
        assert Column(g, k - 1) == Column(f, k - 1);
      }
    }
  }

  /** Setting a cell that was empty to a puyo raises the count by one. */
  lemma PlaceOneCount(f: Field, p: Pos, c: Color)
    requires WellFormed(f) && InBounds(p) && At(f, p) == Empty
    ensures Count(Set(f, p, Puyo(c))) == Count(f) + 1
  {
    var g := Set(f, p, Puyo(c));
    assert g[p.row][p.col := Empty] == f[p.row];
    assert Set(g, p, Empty) == f;
    ClearOneCount(g, p);
  }
}

=== FILE: chain.dfy ===
/** Settlement after a landing: erase every group, let the field fall, and
    repeat while groups remain, scoring each round by its chain number. */
module Chain {
  import opened Board
  import opened Groups
  import opened Gravity

  /** The group size the game clears at. */
  const MinGroupSize: int := 4

  /** Points per erased puyo, before the chain multiplier. */
  const PointsPerPuyo: int := 10

  /** Every listed cell is on the field. */
  predicate CellsInBounds(groups: seq<seq<Pos>>) {
    forall i, q | 0 <= i < |groups| && q in groups[i] :: InBounds(q)
  }

  /** The total number of cells listed: the sum of the group sizes. */
  function TotalSize(groups: seq<seq<Pos>>): nat {
    if |groups| == 0 then 0 else |groups[0]| + TotalSize(groups[1..])
  }

  /** The field with every cell of g emptied, one cell after another. */
  function EraseCells(f: Field, g: seq<Pos>): (r: Field)
    requires WellFormed(f) && forall q | q in g :: InBounds(q)
    ensures WellFormed(r)
    ensures forall q {:trigger At(r, q)} | InBounds(q) :: At(r, q) == if q in g then Empty else At(f, q)
    decreases |g|
  {
    if |g| == 0 then f else EraseCells(Set(f, g[0], Empty), g[1..])
  }

  /** The field with every cell of every group emptied, group after group. */
  function EraseGroups(f: Field, groups: seq<seq<Pos>>): (r: Field)
    requires WellFormed(f) && CellsInBounds(groups)
    ensures WellFormed(r)
    ensures forall q {:trigger At(r, q)} | InBounds(q) :: At(r, q) == if InSomeGroup(groups, q) then Empty else At(f, q)
    decreases |groups|
  {
    if |groups| == 0 then f
    else
      var r := EraseGroups(EraseCells(f, groups[0]), groups[1..]);
      assert forall q | InBounds(q) && InSomeGroup(groups[1..], q) :: InSomeGroup(groups, q) by {
        forall q | InBounds(q) && InSomeGroup(groups[1..], q)
          ensures InSomeGroup(groups, q)
        {
          var i :| 0 <= i < |groups[1..]| && q in groups[1..][i];
          assert q in groups[i + 1];
        }
      }
      assert forall q | InBounds(q) && InSomeGroup(groups, q) && q !in groups[0] :: InSomeGroup(groups[1..], q) by {
        forall q | InBounds(q) && InSomeGroup(groups, q) && q !in groups[0]
          ensures InSomeGroup(groups[1..], q)
        {
          var i :| 0 <= i < |groups| && q in groups[i];
          assert i > 0 && q in groups[1..][i - 1];
        }
      }
      r
  }

  /** Erasing distinct puyos lowers the count by exactly their number. */
  lemma {:induction false} EraseCellsCount(f: Field, g: seq<Pos>)
    requires WellFormed(f) && Distinct(g)
    requires forall q | q in g :: InBounds(q) && At(f, q) != Empty
    ensures Count(EraseCells(f, g)) == Count(f) - |g|
    decreases |g|
  {
    if |g| > 0 {
      var f' := Set(f, g[0], Empty);
      ClearOneCount(f, g[0]);
      forall q | q in g[1..]
        ensures InBounds(q) && At(f', q) != Empty
      {
        var i :| 0 <= i < |g[1..]| && g[1..][i] == q;
        assert q == g[i + 1] != g[0];
      }
      EraseCellsCount(f', g[1..]);
    }
  }

  /** Erasing disjoint groups of distinct puyos lowers the count by the sum of
      the group sizes. */
  lemma {:induction false} EraseGroupsCount(f: Field, groups: seq<seq<Pos>>)
    requires WellFormed(f) && CellsInBounds(groups) && PairwiseDisjoint(groups)
    requires forall i | 0 <= i < |groups| :: Distinct(groups[i])
    requires forall i, q | 0 <= i < |groups| && q in groups[i] :: At(f, q) != Empty
    ensures Count(EraseGroups(f, groups)) == Count(f) - TotalSize(groups)
    decreases |groups|
  {
    if |groups| > 0 {
      var g := groups[0];
      assert forall q | q in g :: InBounds(q) && At(f, q) != Empty by {
        forall q | q in g
          ensures InBounds(q) && At(f, q) != Empty
        {
          assert q in groups[0];
        }
      }
      EraseCellsCount(f, g);
      var f' := EraseCells(f, g);
      var rest := groups[1..];
      forall i, q | 0 <= i < |rest| && q in rest[i]
        ensures At(f', q) != Empty
      {
        assert q in groups[i + 1];
        assert q !in groups[0];
      }
      forall i, j, q | 0 <= i < j < |rest| && q in rest[i]
        ensures q !in rest[j]
      {
        assert q in groups[i + 1] && rest[j] == groups[j + 1];
      }
      forall i, q | 0 <= i < |rest| && q in rest[i]
        ensures InBounds(q)
      {
        assert q in groups[i + 1];
      }
      EraseGroupsCount(f', rest);
    }
  }

  /** Groups of at least min cells each add up to at least min cells each. */
  lemma {:induction false} TotalSizeAtLeast(groups: seq<seq<Pos>>, min: int)
    requires forall i | 0 <= i < |groups| :: |groups[i]| >= min
    ensures TotalSize(groups) >= min * |groups|
  {
    if |groups| > 0 {
      TotalSizeAtLeast(groups[1..], min);
    }
  }

  /** The state of the settlement loop: the field, the chain number of the
      next round (0 for the first) and the score. */
  datatype Settlement = Settlement(field: Field, chain: nat, score: int)

  /** The groups found are on the field, made of puyos, and erasing them then
      letting the field fall removes exactly their cells from the count. */
  lemma EraseAndDrop(f: Field, groups: seq<seq<Pos>>)
    requires WellFormed(f) && groups == FindConnected(f, MinGroupSize)
    ensures CellsInBounds(groups)
    ensures Count(DropField(EraseGroups(f, groups))) == Count(f) - TotalSize(groups)
    ensures Settled(DropField(EraseGroups(f, groups)))
    ensures TotalSize(groups) >= MinGroupSize * |groups|
  {
    forall i, q | 0 <= i < |groups| && q in groups[i]
      ensures InBounds(q) && At(f, q) != Empty
    {
      assert IsGroup(f, groups[i], MinGroupSize);
    }
    forall i | 0 <= i < |groups|
      ensures Distinct(groups[i]) && |groups[i]| >= MinGroupSize
    {
      assert IsGroup(f, groups[i], MinGroupSize);
    }
    var erased := EraseGroups(f, groups);
    EraseGroupsCount(f, groups);
    DropFieldSettles(erased);
    TotalSizeAtLeast(groups, MinGroupSize);
  }

  /** Ten points per puyo for `cleared` puyos, counted `multiplier` times. */
  function Points(cleared: int, multiplier: nat): int {
    if multiplier == 0 then 0 else Points(cleared, multiplier - 1) + cleared * PointsPerPuyo
  }

  /** Points is the product the game computes: puyos times ten times the
      multiplier. */
  lemma {:induction false} PointsIsProduct(cleared: int, multiplier: nat)
    ensures Points(cleared, multiplier) == cleared * multiplier * PointsPerPuyo
  {
    if multiplier > 0 {
      PointsIsProduct(cleared, multiplier - 1);
      assert cleared * multiplier * PointsPerPuyo
          == cleared * (multiplier - 1) * PointsPerPuyo + cleared * PointsPerPuyo;
    }
  }

  lemma {:induction false} PointsAdd(a: int, b: int, m: nat)
    ensures Points(a + b, m) == Points(a, m) + Points(b, m)
  {
    if m > 0 {
      PointsAdd(a, b, m - 1);
    }
  }

  lemma {:induction false} PointsMonotone(cleared: int, m1: nat, m2: nat)
    requires cleared >= 0 && m1 <= m2
    ensures 0 <= Points(cleared, m1) <= Points(cleared, m2)
    decreases m2
  {
    if m1 < m2 {
      PointsMonotone(cleared, m1, m2 - 1);
    } else if m1 > 0 {
      PointsMonotone(cleared, 0, m1 - 1);
    }
  }

  /** The points for erasing `cleared` puyos in the round with chain number
      `chain`: ten each, times the chain multiplier chain + 1. */
  function ChainPoints(cleared: int, chain: nat): int {
    Points(cleared, chain + 1)
  }

  /** The points earned for `cleared` puyos over the rounds with chain numbers
      first up to last - 1 lie between paying every puyo at the first
      round's multiplier and paying every puyo at the last one's. */
  predicate PointsWithin(cleared: int, first: nat, last: nat, gained: int) {
    Points(cleared, first + 1) <= gained <= Points(cleared, last)
  }

  /** What one round promises: the fallen field is settled, the chain number
      goes up by one, at least MinGroupSize puyos are erased, and the score
      grows by their points at this round's multiplier. */
  predicate StepOutcome(f: Field, chain: nat, score: int, next: Settlement)
    requires WellFormed(f)
  {
    && WellFormed(next.field) && Settled(next.field)
    && next.chain == chain + 1
    && Count(next.field) + MinGroupSize <= Count(f)
    && next.score - score == ChainPoints(Count(f) - Count(next.field), chain)
  }

  /** One round of the loop on a field that has groups: score them, erase
      them, let the field fall. The points are ten per erased puyo times the
      chain multiplier, which is the round's chain number plus one. */
  function ChainStep(f: Field, chain: nat, score: int): (next: Settlement)
    requires WellFormed(f) && FindConnected(f, MinGroupSize) != []
    ensures StepOutcome(f, chain, score, next)
    ensures CellsInBounds(FindConnected(f, MinGroupSize))
    ensures next.field == DropField(EraseGroups(f, FindConnected(f, MinGroupSize)))
    ensures next.score == score + TotalSize(FindConnected(f, MinGroupSize)) * (chain + 1) * PointsPerPuyo
  {
    var groups := FindConnected(f, MinGroupSize);
    EraseAndDrop(f, groups);
    PointsIsProduct(TotalSize(groups), chain + 1);
    var next := DropField(EraseGroups(f, groups));
    Settlement(next, chain + 1, score + ChainPoints(TotalSize(groups), chain))
  }

  /** One round's points followed by the rest of the loop's points stay
      within the bounds for all the puyos cleared. */
  lemma ScoreBoundsCompose(c1: int, c2: int, total: int, chain: nat, next: nat, last: nat,
                            g1: int, g2: int, gained: int)
    requires c1 >= 0 && c2 >= 0 && total == c1 + c2
    requires next == chain + 1 && last >= next
    requires g1 == ChainPoints(c1, chain)
    requires PointsWithin(c2, next, last, g2)
    requires gained == g1 + g2
    ensures PointsWithin(total, chain, last, gained)
    ensures gained >= 0
  {
    PointsAdd(c1, c2, chain + 1);
    PointsAdd(c1, c2, last);
    PointsMonotone(c2, chain + 1, next + 1);
    PointsMonotone(c1, chain + 1, last);
  }

  /** What the chain loop promises about its outcome s from field f at chain
      number chain and score score: the final field is settled; the chain
      number grows by the number of rounds, and there is a round exactly when
      f has a group; with no round the field is only dropped and the score
      kept; after at least one round (or from a settled field) no group is
      left; every round erases at least MinGroupSize puyos; and the points
      gained lie between paying every erased puyo at the first round's
      multiplier and at the last round's. */
  predicate Outcome(f: Field, chain: nat, score: int, s: Settlement)
    requires WellFormed(f)
  {
    && WellFormed(s.field) && Settled(s.field)
    && s.chain >= chain
    && (s.chain == chain <==> FindConnected(f, MinGroupSize) == [])
    && (s.chain == chain ==> s.field == DropField(f) && s.score == score)
    && ((s.chain > chain || Settled(f)) ==> FindConnected(s.field, MinGroupSize) == [])
    && Count(s.field) + MinGroupSize * (s.chain - chain) <= Count(f)
    && PointsWithin(Count(f) - Count(s.field), chain, s.chain, s.score - score)
    && s.score >= score
  }

  /** With no group on the field the loop drops it once and stops. */
  lemma NoRoundOutcome(f: Field, chain: nat, score: int)
    requires WellFormed(f) && FindConnected(f, MinGroupSize) == []
    ensures Outcome(f, chain, score, Settlement(DropField(f), chain, score))
  {
    DropFieldSettles(f);
    SettledIffFixed(f);
    PointsAdd(0, 0, chain + 1);
    PointsAdd(0, 0, chain);
  }

  /** One round followed by the outcome
      of the rest of the loop is an outcome of the whole loop. */
  lemma RoundOutcome(f: Field, chain: nat, score: int, next: Settlement, s: Settlement)
    requires WellFormed(f) && FindConnected(f, MinGroupSize) != []
    requires StepOutcome(f, chain, score, next)
    requires Outcome(next.field, next.chain, next.score, s)
    ensures Outcome(f, chain, score, s)
  {
    SettledIffFixed(next.field);
    ScoreBoundsCompose(Count(f) - Count(next.field), Count(next.field) - Count(s.field),
      Count(f) - Count(s.field), chain, next.chain, s.chain,
      next.score - score, s.score - next.score, s.score - score);
  }

  /** The chain loop, from a freshly merged field at chain 0. Groups are
      looked for on the field as it stands; when there are none the field is
      dropped once more and the loop ends, otherwise one round is played and
      the loop repeats on the fallen field. */
  function Resolve(f: Field, chain: nat, score: int): (s: Settlement)
    requires WellFormed(f)
    ensures WellFormed(s.field) && Outcome(f, chain, score, s)
    decreases Count(f)
  {
    if FindConnected(f, MinGroupSize) == [] then
      NoRoundOutcome(f, chain, score);
      Settlement(DropField(f), chain, score)
    else
      var next := ChainStep(f, chain, score);
      var s := Resolve(next.field, next.chain, next.score);
      RoundOutcome(f, chain, score, next, s);
      s
  }

  /** The loop gains points exactly when it plays a round, and after a round
      (or from a settled field) no group is left. */
  lemma PointsGained(f: Field, s: Settlement, score: int)
    requires WellFormed(f) && Outcome(f, 0, score, s)
    ensures FindConnected(f, MinGroupSize) == [] ==> s.field == DropField(f) && s.score == score
    ensures FindConnected(f, MinGroupSize) != [] ==> s.score > score
    ensures s.score > score || Settled(f) ==> FindConnected(s.field, MinGroupSize) == []
  {
    if FindConnected(f, MinGroupSize) != [] {
      var cleared := Count(f) - Count(s.field);
      assert cleared >= MinGroupSize;
      PointsIsProduct(cleared, 1);
    }
  }

  /** At a fixpoint (settled, no group) the loop changes neither the field
      nor the score nor the chain number. */
  lemma ResolveAtFixpoint(f: Field, chain: nat, score: int)
    requires WellFormed(f) && Settled(f) && FindConnected(f, MinGroupSize) == []
    ensures Resolve(f, chain, score) == Settlement(f, chain, score)
  {
    SettledIffFixed(f);
  }

  /** The settlement of a freshly landed field as the game evidently intends
      it: gravity first, so a half of the pair left hanging falls before
      groups are looked for, then the chain loop. Nothing then stays on the
      field that could still be erased. */
  function SettleLanding(f: Field, score: int): (s: Settlement)
    requires WellFormed(f)
    ensures WellFormed(s.field) && Outcome(DropField(f), 0, score, s)
    ensures Settled(s.field) && FindConnected(s.field, MinGroupSize) == []
    ensures Count(s.field) + MinGroupSize * s.chain <= Count(f)
    ensures s.score >= score
  {
    DropFieldSettles(f);
    Resolve(DropField(f), 0, score)
  }

  /** On a landed field that is already settled, dropping first changes
      nothing: the intended settlement is the loop as the game runs it. */
  lemma SettleLandingAgrees(f: Field, score: int)
    requires WellFormed(f) && Settled(f)
    ensures SettleLanding(f, score) == Resolve(f, 0, score)
  {
    SettledIffFixed(f);
  }

  /** When the dropped field holds a group, settling runs at least one round
      and scores at least the points of one smallest group. */
  lemma SettleLandingErasesGroup(f: Field, score: int)
    requires WellFormed(f) && FindConnected(DropField(f), MinGroupSize) != []
    ensures SettleLanding(f, score).chain >= 1
    ensures SettleLanding(f, score).score >= score + MinGroupSize * PointsPerPuyo
  {
    OutcomeOfGroup(DropField(f), score, SettleLanding(f, score));
  }

  /** A settlement from chain 0 of a field holding a group has run a round
      and scored at least the points of one smallest group. */
  lemma OutcomeOfGroup(f: Field, score: int, s: Settlement)
    requires WellFormed(f) && FindConnected(f, MinGroupSize) != []
    requires Outcome(f, 0, score, s)
    ensures s.chain >= 1 && s.score >= score + MinGroupSize * PointsPerPuyo
  {
    var cleared := Count(f) - Count(s.field);
    assert cleared >= MinGroupSize;
    PointsIsProduct(cleared, 1);
  }
}

=== FILE: first_pass.dfy ===
/** A landing the chain loop mishandles when it looks for groups before
    gravity. Three red puyos lie on the bottom row in columns 0 to 2 and a
    yellow one in column 4. A horizontal pair, red parent over the empty
    column 3 and blue child over the yellow puyo, lands on row 10: the red
    half hangs in the air. No group exists yet, so the loop drops the field
    once and stops; the red half then falls next to the three reds and a
    group of four stays on the field. */
module FirstPass {
  import opened Board
  import opened Pairs
  import opened Groups
  import opened Gravity
  import opened Chain
  import opened Game

  /** The field before the landing, built on an empty field e. */
  function Before(e: Field): (f: Field)
    requires WellFormed(e)
    ensures WellFormed(f)
  {
    Set(Set(Set(Set(e, Pos(11, 0), Puyo(Red)), Pos(11, 1), Puyo(Red)), Pos(11, 2), Puyo(Red)), Pos(11, 4), Puyo(Yellow))
  }

  /** The pair as it lands: red parent at (10, 3), blue child to its right. */
  function Landing(): (pair: Pair)
    ensures Consistent(pair)
  {
    Pair(Pos(10, 3), Pos(10, 4), Red, Blue, 1)
  }

  /** What the landed field holds at each cell. */
  function Expected(q: Pos): Cell {
    if q in {Pos(11, 0), Pos(11, 1), Pos(11, 2), Pos(10, 3)} then Puyo(Red)
    else if q == Pos(10, 4) then Puyo(Blue)
    else if q == Pos(11, 4) then Puyo(Yellow)
    else Empty
  }

  /** The pair cannot fall any further: it has landed. */
  lemma PairLands(e: Field)
    requires WellFormed(e) && forall p {:trigger At(e, p)} | InBounds(p) :: At(e, p) == Empty
    ensures Placeable(Before(e), Landing())
    ensures MovePair(Landing(), Before(e), 1, 0) == Landing()
  {
    var f := Before(e);
    PlaceableCells(f, Landing());
    CanMoveTwo(f, Pos(11, 3), Pos(11, 4));
    assert At(f, Pos(11, 4)) == Puyo(Yellow);
  }

  /** The field right after the landing, cell by cell. */
  lemma LandedCells(e: Field)
    requires WellFormed(e) && forall p {:trigger At(e, p)} | InBounds(p) :: At(e, p) == Empty
    ensures forall q {:trigger At(FixPairToField(Before(e), Landing()), q)} | InBounds(q) ::
      At(FixPairToField(Before(e), Landing()), q) == Expected(q)
  {
  }

  /** Every cell of a group of at least two has a neighbour in the group. */
  lemma NeighbourInGroup(f: Field, g: seq<Pos>, i: int) returns (j: int)
    requires WellFormed(f) && IsGroup(f, g, 2) && 0 <= i < |g|
    ensures 0 <= j < |g| && g[j] in Neighbors(g[i])
  {
    if i > 0 {
      assert TouchesEarlier(g, i);
      j :| 0 <= j < i && Adjacent(g[j], g[i]);
      AdjacentSymmetric(g[j], g[i]);
    } else {
      assert TouchesEarlier(g, 1);
      j := 1;
    }
  }

  /** A group of at least two cells has a second cell of the same colour. */
  lemma OtherCell(f: Field, g: seq<Pos>, i: int) returns (k: int)
    requires WellFormed(f) && IsGroup(f, g, 2) && 0 <= i < |g|
    ensures 0 <= k < |g| && g[k] != g[i] && InBounds(g[k]) && At(f, g[k]) == At(f, g[i])
  {
    k := if i == 0 then 1 else 0;
  }

  /** A group of distinct cells drawn from a set has at most as many cells
      as the set. */
  lemma GroupWithin(g: seq<Pos>, s: set<Pos>)
    requires Distinct(g) && forall q | q in g :: q in s
    ensures |g| <= |s|
  {
    DistinctCells(g);
    assert Cells(g) <= s;
    assert s == Cells(g) + (s - Cells(g));
  }

  /** Right after the landing there is no group to erase. */
  lemma NoGroupBeforeDrop(e: Field)
    requires WellFormed(e) && forall p {:trigger At(e, p)} | InBounds(p) :: At(e, p) == Empty
    ensures FindConnected(FixPairToField(Before(e), Landing()), MinGroupSize) == []
  {
    var f := FixPairToField(Before(e), Landing());
    LandedCells(e);
    var groups := FindConnected(f, MinGroupSize);
    if groups != [] {
      var g := groups[0];
      assert IsGroup(f, g, MinGroupSize);
      var c := At(f, g[0]).color;
      assert Expected(g[0]) == Puyo(c);
      forall q | q in g
        ensures q in {Pos(11, 0), Pos(11, 1), Pos(11, 2)}
      {
        var i :| 0 <= i < |g| && g[i] == q;
        assert At(f, q) == Puyo(c) && Expected(q) == Puyo(c);
        if q == Pos(10, 3) {
          var j := NeighbourInGroup(f, g, i);
          assert false;
        } else if q == Pos(10, 4) || q == Pos(11, 4) {
          var k := OtherCell(f, g, i);
          assert false;
        }
      }
      GroupWithin(g, {Pos(11, 0), Pos(11, 1), Pos(11, 2)});
      assert false;
    }
  }

  /** Column 3 of the landed field holds one red puyo, at row 10. */
  lemma HangingColumn(e: Field)
    requires WellFormed(e) && forall p {:trigger At(e, p)} | InBounds(p) :: At(e, p) == Empty
    ensures DropColumn(Column(FixPairToField(Before(e), Landing()), 3)) == Blanks(11) + [Puyo(Red)]
  {
    var f := FixPairToField(Before(e), Landing());
    LandedCells(e);
    var col := Column(f, 3);
    forall r | 0 <= r < FieldRows
      ensures col[r] == (Blanks(10) + [Puyo(Red)] + Blanks(1))[r]
    {
      assert col[r] == At(f, Pos(r, 3));
    }
    assert col == Blanks(10) + [Puyo(Red)] + Blanks(1);
    PuyosAppend(Blanks(10) + [Puyo(Red)], Blanks(1));
    PuyosAppend(Blanks(10), [Puyo(Red)]);
    EmptyCellsHaveNoPuyos(Blanks(10));
    EmptyCellsHaveNoPuyos(Blanks(1));
    assert Puyos([Puyo(Red)]) == [Puyo(Red)] by {
      assert [Puyo(Red)][1..] == [];
    }
    assert Puyos(col) == [Puyo(Red)];
  }

  /** Every column but column 3 is already compact and does not change. */
  lemma KeptColumn(e: Field, c: int)
    requires WellFormed(e) && forall p {:trigger At(e, p)} | InBounds(p) :: At(e, p) == Empty
    requires 0 <= c < FieldCols && c != 3
    ensures var f := FixPairToField(Before(e), Landing());
      Column(DropField(f), c) == Column(f, c)
  {
    var f := FixPairToField(Before(e), Landing());
    LandedCells(e);
    var col := Column(f, c);
    forall i, j | 0 <= i < j < |col| && col[i] != Empty
      ensures col[j] != Empty
    {
      assert col[i] == At(f, Pos(i, c)) && col[j] == At(f, Pos(j, c));
    }
    CompactIsSettled(col);
  }

  /** After gravity the bottom row holds four reds in columns 0 to 3, with
      empty cells above them and the yellow puyo beside them. */
  lemma DroppedCells(e: Field)
    requires WellFormed(e) && forall p {:trigger At(e, p)} | InBounds(p) :: At(e, p) == Empty
    ensures var d := DropField(FixPairToField(Before(e), Landing()));
      && (forall c | 0 <= c < 4 :: At(d, Pos(11, c)) == Puyo(Red) && At(d, Pos(10, c)) == Empty)
      && At(d, Pos(11, 4)) == Puyo(Yellow)
  {
    var f := FixPairToField(Before(e), Landing());
    var d := DropField(f);
    LandedCells(e);
    HangingColumn(e);
    forall c | 0 <= c < 4
      ensures At(d, Pos(11, c)) == Puyo(Red) && At(d, Pos(10, c)) == Empty
    {
      assert At(d, Pos(11, c)) == Column(d, c)[11] && At(d, Pos(10, c)) == Column(d, c)[10];
      if c != 3 {
        KeptColumn(e, c);
        assert Column(f, c)[11] == At(f, Pos(11, c)) && Column(f, c)[10] == At(f, Pos(10, c));
      }
    }
    KeptColumn(e, 4);
    assert At(d, Pos(11, 4)) == Column(d, 4)[11] == Column(f, 4)[11] == At(f, Pos(11, 4));
  }

  /** The four cells of the bottom row in columns 0 to 3. */
  function RedRow(): (g: seq<Pos>)
    ensures |g| == 4 && forall i | 0 <= i < 4 :: g[i] == Pos(11, i)
  {
    [Pos(11, 0), Pos(11, 1), Pos(11, 2), Pos(11, 3)]
  }

  /** Four reds side by side on the bottom row, with no red above them and
      a yellow puyo to their right, form a group. */
  lemma RedRowIsGroup(d: Field)
    requires WellFormed(d)
    requires forall c | 0 <= c < 4 :: At(d, Pos(11, c)) == Puyo(Red) && At(d, Pos(10, c)) == Empty
    requires At(d, Pos(11, 4)) == Puyo(Yellow)
    ensures IsGroup(d, RedRow(), MinGroupSize)
  {
    var g := RedRow();
    assert AllOfColor(d, g, Red);
    forall i | 0 < i < |g|
      ensures TouchesEarlier(g, i)
    {
      assert g[i] in Neighbors(g[i - 1]);
    }
    forall q, n | q in g && n in Neighbors(q)
      ensures InBounds(q) && InBounds(n) && At(d, n) == At(d, q) ==> n in g
    {
      var i :| 0 <= i < 4 && g[i] == q;
      if InBounds(n) && At(d, n) == Puyo(Red) {
        assert n.row == 11 && 0 <= n.col < 4;
        assert n == g[n.col];
      }
    }
  }

  /** After gravity the four reds on the bottom row form a group. */
  lemma GroupAfterDrop(e: Field)
    requires WellFormed(e) && forall p {:trigger At(e, p)} | InBounds(p) :: At(e, p) == Empty
    ensures FindConnected(DropField(FixPairToField(Before(e), Landing())), MinGroupSize) != []
  {
    var d := DropField(FixPairToField(Before(e), Landing()));
    DroppedCells(e);
    RedRowIsGroup(d);
    FindConnectedComplete(d, MinGroupSize, RedRow());
    assert InSomeGroup(FindConnected(d, MinGroupSize), RedRow()[0]);
  }

  /** The chain loop as the game runs it finds nothing on the landed field,
      ends at once, and leaves a group of four on the settled field. */
  lemma FirstPassMissesGroup(e: Field)
    requires WellFormed(e) && forall p {:trigger At(e, p)} | InBounds(p) :: At(e, p) == Empty
    ensures var s := Resolve(FixPairToField(Before(e), Landing()), 0, 0);
      s.chain == 0 && s.score == 0 && FindConnected(s.field, MinGroupSize) != []
  {
    NoGroupBeforeDrop(e);
    GroupAfterDrop(e);
  }

  /** Settling with gravity first erases that group. */
  lemma SettleLandingErases(e: Field)
    requires WellFormed(e) && forall p {:trigger At(e, p)} | InBounds(p) :: At(e, p) == Empty
    ensures var s := SettleLanding(FixPairToField(Before(e), Landing()), 0);
      s.chain >= 1 && s.score >= 40
  {
    GroupAfterDrop(e);
    SettleLandingErasesGroup(FixPairToField(Before(e), Landing()), 0);
  }

  /** Before the landing only the bottom row holds puyos, so nothing would
      fall. */
  lemma BeforeSettled(e: Field)
    requires WellFormed(e) && forall p {:trigger At(e, p)} | InBounds(p) :: At(e, p) == Empty
    ensures Settled(Before(e))
  {
    var f := Before(e);
    forall c | 0 <= c < FieldCols
      ensures Compact(Column(f, c))
    {
      var col := Column(f, c);
      forall i | 0 <= i < FieldRows - 1
        ensures col[i] == Empty
      {
        assert col[i] == At(f, Pos(i, c));
      }
    }
  }

  /** The same landing in the running game: a valid state whose pair cannot
      fall. */
  lemma LandingState(e: Field, next: Pair)
    requires WellFormed(e) && forall p {:trigger At(e, p)} | InBounds(p) :: At(e, p) == Empty
    requires Consistent(next) && 0 <= next.rotation < 4
    ensures var g := State(Before(e), Landing(), next, 0, false);
      Valid(g) && !CanFall(g) && Landed(g) == FixPairToField(Before(e), Landing())
  {
    BeforeSettled(e);
    PairLands(e);
  }

  /** On that state the tick lands the pair, plays no round, scores nothing,
      and leaves a group of four on the field. */
  lemma TickLeavesGroup(e: Field, next: Pair, c1: Color, c2: Color)
    requires WellFormed(e) && forall p {:trigger At(e, p)} | InBounds(p) :: At(e, p) == Empty
    requires Consistent(next) && 0 <= next.rotation < 4
    ensures var g := State(Before(e), Landing(), next, 0, false);
      && Valid(g) && !CanFall(g)
      && DropTick(g, c1, c2).score == 0
      && FindConnected(DropTick(g, c1, c2).field, MinGroupSize) != []
  {
    var g := State(Before(e), Landing(), next, 0, false);
    LandingState(e, next);
    NoGroupBeforeDrop(e);
    GroupAfterDrop(e);
    var r := Land(g, c1, c2);
    assert r.field == DropField(FixPairToField(Before(e), Landing())) && r.score == 0;
    assert DropTick(g, c1, c2) == r;
  }
}

=== FILE: game.dfy ===
/** The game between two inputs: the falling pair moves down one row per tick,
    and when it cannot it lands, the chain loop settles the field, the next
    pair takes its place and a new next pair is drawn. Key presses move or
    rotate the falling pair. */
module Game {
  import opened Board
  import opened Pairs
  import opened Groups
  import opened Gravity
  import opened Chain

  /** The state the game keeps between ticks: the field, the falling pair,
      the pair shown as next, the score and whether the game is over. */
  datatype State = State(field: Field, pair: Pair, next: Pair, score: int, over: bool)

  /** What holds of every state reached from a new game: the field has the
      right shape and nothing on it would fall, both pairs have the child on
      the side their rotation names, and while the game runs the falling pair
      sits on free cells. */
  predicate Valid(g: State) {
    && WellFormed(g.field)
    && Settled(g.field)
    && Consistent(g.pair) && 0 <= g.pair.rotation < 4
    && Consistent(g.next) && 0 <= g.next.rotation < 4
    && (!g.over ==> Placeable(g.field, g.pair))
  }

  /** Two fresh pairs over an empty field make a valid running game. */
  lemma StartValid(f: Field, first: Pair, second: Pair)
    requires WellFormed(f)
    requires forall p {:trigger At(f, p)} | InBounds(p) :: At(f, p) == Empty
    requires Consistent(first) && 0 <= first.rotation < 4 && InBounds(first.parent) && InBounds(first.child)
    requires Consistent(second) && 0 <= second.rotation < 4
    ensures Valid(State(f, first, second, 0, false))
  {
    PlaceableCells(f, first);
    EmptyFieldSettled(f);
  }

  /** A new game: an empty field, two freshly drawn pairs, no score. */
  function NewGame(c1: Color, c2: Color, c3: Color, c4: Color): (g: State)
    ensures Valid(g) && !g.over && g.score == 0
    ensures Count(g.field) == 0
    ensures g.pair == CreatePuyoPair(c1, c2) && g.next == CreatePuyoPair(c3, c4)
  {
    var f := CreateEmptyField();
    StartValid(f, CreatePuyoPair(c1, c2), CreatePuyoPair(c3, c4));
    State(f, CreatePuyoPair(c1, c2), CreatePuyoPair(c3, c4), 0, false)
  }

  /** The pair one row lower, if both of its cells are free there. */
  predicate CanFall(g: State)
    requires WellFormed(g.field)
  {
    CanMove(g.field, [Shift(g.pair.parent, 1, 0), Shift(g.pair.child, 1, 0)])
  }

  /** The state with the falling pair one row lower and nothing else changed. */
  function Fallen(g: State): State {
    g.(pair := g.pair.(parent := Shift(g.pair.parent, 1, 0), child := Shift(g.pair.child, 1, 0)))
  }

  /** One tick of the drop timer. A finished game does not change. Otherwise
      the pair moves down a row if it can; if it cannot, it is written into
      the field, the chain loop settles the field from chain 0, the next pair
      becomes the falling pair, the pair of colours c1, c2 becomes the next
      pair, and the game is over when the new falling pair does not fit. */
  function DropTick(g: State, c1: Color, c2: Color): (r: State)
    requires Valid(g)
    ensures Valid(r)
    ensures g.over ==> r == g
    ensures !g.over && CanFall(g) ==> r == Fallen(g)
    ensures !g.over && !CanFall(g) ==>
              && r.pair == g.next && r.next == CreatePuyoPair(c1, c2)
              && r.score >= g.score
              && Count(r.field) <= Count(g.field) + 2
              && (r.over <==> !Placeable(r.field, r.pair))
    ensures !g.over && !CanFall(g) ==> r == Land(g, c1, c2)
  {
    if g.over then g
    else
      var moved := MovePair(g.pair, g.field, 1, 0);
      if moved != g.pair then
        State(g.field, moved, g.next, g.score, g.over)
      else
        Land(g, c1, c2)
  }

  /** The field with the falling pair written into it. */
  function Landed(g: State): (f: Field)
    requires Valid(g) && !g.over
    ensures WellFormed(f) && Count(f) == Count(g.field) + 2
  {
    PlaceableCells(g.field, g.pair);
    FixPairToField(g.field, g.pair)
  }

  /** The landing half of a tick, as the game runs it: the pair is written
      into the field, the chain loop runs on the landed field as it stands,
      and the next pair comes in. A group can be left on the field only when
      no round was played and the landed field was not settled, that is,
      when half of the pair hung in the air. */
  function Land(g: State, c1: Color, c2: Color): (r: State)
    requires Valid(g) && !g.over
    ensures Valid(r)
    ensures r.pair == g.next && r.next == CreatePuyoPair(c1, c2)
    ensures r.score >= g.score
    ensures Count(r.field) <= Count(g.field) + 2
    ensures r.over <==> !Placeable(r.field, r.pair)
    ensures FindConnected(Landed(g), MinGroupSize) == [] ==> r.field == DropField(Landed(g)) && r.score == g.score
    ensures FindConnected(Landed(g), MinGroupSize) != [] ==> r.score > g.score
    ensures r.score > g.score || Settled(Landed(g)) ==> FindConnected(r.field, MinGroupSize) == []
    ensures var s := Resolve(Landed(g), 0, g.score); r.field == s.field && r.score == s.score
  {
    var s := Resolve(Landed(g), 0, g.score);
    PointsGained(Landed(g), s, g.score);
    PlaceableCells(s.field, g.next);
    State(s.field, g.next, CreatePuyoPair(c1, c2), s.score, IsGameOver(s.field, g.next))
  }

  /** The landing with gravity applied before the first search for groups,
      as the game evidently intends it: no group is ever left behind. */
  function LandGravityFirst(g: State, c1: Color, c2: Color): (r: State)
    requires Valid(g) && !g.over
    ensures Valid(r) && FindConnected(r.field, MinGroupSize) == []
    ensures r.pair == g.next && r.next == CreatePuyoPair(c1, c2)
    ensures r.score >= g.score
    ensures Count(r.field) <= Count(g.field) + 2
    ensures r.over <==> !Placeable(r.field, r.pair)
    ensures var s := SettleLanding(Landed(g), g.score); r.field == s.field && r.score == s.score
  {
    var s := SettleLanding(Landed(g), g.score);
    PlaceableCells(s.field, g.next);
    State(s.field, g.next, CreatePuyoPair(c1, c2), s.score, IsGameOver(s.field, g.next))
  }

  /** The two landings differ only when the landed field is not settled. */
  lemma LandingsAgree(g: State, c1: Color, c2: Color)
    requires Valid(g) && !g.over && Settled(Landed(g))
    ensures LandGravityFirst(g, c1, c2) == Land(g, c1, c2)
  {
    SettleLandingAgrees(Landed(g), g.score);
  }

  /** The keys that act on the falling pair. */
  datatype Key = Left | Right | Down | Rotate

  /** A key press: ignored once the game is over, otherwise the pair moves one
      column left or right, one row down, or rotates with wall kicks. */
  function PressKey(g: State, key: Key): (r: State)
    requires Valid(g)
    ensures Valid(r)
    ensures r.field == g.field && r.next == g.next && r.score == g.score && r.over == g.over
    ensures g.over ==> r == g
    ensures r.pair.parentColor == g.pair.parentColor && r.pair.childColor == g.pair.childColor
    ensures !g.over && key == Left ==> r.pair == MovePair(g.pair, g.field, 0, -1)
    ensures !g.over && key == Right ==> r.pair == MovePair(g.pair, g.field, 0, 1)
    ensures !g.over && key == Down ==> r.pair == MovePair(g.pair, g.field, 1, 0)
    ensures !g.over && key == Rotate ==> r.pair == RotatePair(g.pair, g.field)
  {
    if g.over then g
    else
      var pair := match key
        case Left => MovePair(g.pair, g.field, 0, -1)
        case Right => MovePair(g.pair, g.field, 0, 1)
        case Down => MovePair(g.pair, g.field, 1, 0)
        case Rotate => RotatePair(g.pair, g.field);
      g.(pair := pair)
  }
}

=== FILE: gravity.dfy ===
/** Gravity: after an erase every column settles independently, its puyos
    sliding to the bottom in their original top-to-bottom order. */
module Gravity {
  import opened Board

  /** k empty cells. */
  function Blanks(k: nat): (s: seq<Cell>)
    ensures |s| == k && forall i | 0 <= i < k :: s[i] == Empty
  {
    seq(k, _ => Empty)
  }

  /** The reference shape of a settled column: the puyos of col, in order,
      stacked at the bottom under empty cells. */
  function SettledColumn(col: seq<Cell>): (s: seq<Cell>)
    ensures |s| == |col|
  {
    Blanks(|col| - |Puyos(col)|) + Puyos(col)
  }

  /** No empty cell lies below a puyo. */
  predicate Compact(col: seq<Cell>) {
    forall i, j | 0 <= i < j < |col| :: col[i] != Empty ==> col[j] != Empty
  }

  /** The compaction loop of one column: rows are read from r upward to the
      top, and each puyo met is written at row write of out, which then moves
      up by one. */
  function DropColumnFrom(col: seq<Cell>, r: int, write: int, out: seq<Cell>): (res: seq<Cell>)
    requires -1 <= r < |col| && |out| == |col|
    requires write == |col| - 1 - |Puyos(col[r + 1..])|
    requires out == Blanks(write + 1) + Puyos(col[r + 1..])
    ensures res == SettledColumn(col)
    // The measure is r + 1 written through col, so that on a column given
    // as a literal the loop is not unrolled cell by cell.
    decreases |col[..r + 1]|
  {
    if r < 0 then
      out
    else
      assert col[r..] == [col[r]] + col[r + 1..];
      assert col[r..][1..] == col[r + 1..];
      if col[r] != Empty then
        assert write >= r;
        DropColumnFrom(col, r - 1, write - 1, out[write := col[r]])
      else
        DropColumnFrom(col, r - 1, write, out)
  }

  /** One column compacted, writing bottom-up into a fresh empty column. */
  function DropColumn(col: seq<Cell>): (res: seq<Cell>)
    ensures |res| == |col|
    ensures Puyos(res) == Puyos(col)
    ensures Compact(res)
    ensures res == SettledColumn(col)
  {
    var res := DropColumnFrom(col, |col| - 1, |col| - 1, Blanks(|col|));
    SettledShape(col);
    res
  }

  lemma {:induction false} PuyosOfPuyos(s: seq<Cell>)
    requires forall i | 0 <= i < |s| :: s[i] != Empty
    ensures Puyos(s) == s
  {
    if |s| > 0 {
      PuyosOfPuyos(s[1..]);
    }
  }

  lemma SettledShape(col: seq<Cell>)
    ensures Puyos(SettledColumn(col)) == Puyos(col)
    ensures Compact(SettledColumn(col))
  {
    var b := Blanks(|col| - |Puyos(col)|);
    PuyosAppend(b, Puyos(col));
    EmptyCellsHaveNoPuyos(b);
    PuyosOfPuyos(Puyos(col));
  }

  /** A compact column is already settled. */
  lemma {:induction false} CompactIsSettled(col: seq<Cell>)
    requires Compact(col)
    ensures SettledColumn(col) == col
  {
    if |col| > 0 && col[0] == Empty {
      CompactIsSettled(col[1..]);
      assert col == [Empty] + col[1..];
      assert Blanks(|col| - |Puyos(col)|) == [Empty] + Blanks(|col[1..]| - |Puyos(col[1..])|);
    } else if |col| > 0 {
      PuyosOfPuyos(col);
    }
  }

  /** The first k rows of the field with every column compacted. */
  function DropRows(f: Field, k: int): (rows: seq<seq<Cell>>)
    requires WellFormed(f) && 0 <= k <= FieldRows
    ensures |rows| == k
    ensures forall r | 0 <= r < k :: |rows[r]| == FieldCols
    ensures forall r, c | 0 <= r < k && 0 <= c < FieldCols :: rows[r][c] == DropColumn(Column(f, c))[r]
    // f in the measure keeps DropRows(f, FieldRows) from being unrolled row
    // by row at its literal argument.
    decreases k, f
  {
    if k == 0 then []
    else DropRows(f, k - 1) + [seq(FieldCols, c requires 0 <= c < FieldCols => DropColumn(Column(f, c))[k - 1])]
  }

  /** The field with every column compacted independently. */
  function DropField(f: Field): (g: Field)
    requires WellFormed(f)
    ensures WellFormed(g)
    ensures forall c | 0 <= c < FieldCols :: Column(g, c) == DropColumn(Column(f, c))
  {
    DropRows(f, FieldRows)
  }

  /** Every column of the field is compact: nothing would fall. */
  predicate Settled(f: Field)
    requires WellFormed(f)
  {
    forall c | 0 <= c < FieldCols :: Compact(Column(f, c))
  }

  /** An empty field is settled. */
  lemma EmptyFieldSettled(f: Field)
    requires WellFormed(f)
    requires forall p {:trigger At(f, p)} | InBounds(p) :: At(f, p) == Empty
    ensures Settled(f)
  {
    forall c | 0 <= c < FieldCols
      ensures Compact(Column(f, c))
    {
      forall r | 0 <= r < FieldRows
        ensures Column(f, c)[r] == Empty
      {
        assert At(f, Pos(r, c)) == Empty;
      }
    }
  }

  /** Gravity keeps each column's puyos in order, packs them at the bottom,
      and keeps the puyo count. */
  lemma DropFieldSettles(f: Field)
    requires WellFormed(f)
    ensures Settled(DropField(f))
    ensures forall c | 0 <= c < FieldCols :: Puyos(Column(DropField(f), c)) == Puyos(Column(f, c))
    ensures Count(DropField(f)) == Count(f)
  {
    CountColumnsAgree(DropField(f), f, FieldCols);
  }

  /** A field is settled exactly when gravity leaves it unchanged. */
  lemma SettledIffFixed(f: Field)
    requires WellFormed(f)
    ensures Settled(f) <==> DropField(f) == f
  {
    if Settled(f) {
      forall c | 0 <= c < FieldCols
        ensures Column(DropField(f), c) == Column(f, c)
      {
        CompactIsSettled(Column(f, c));
      }
      ColumnsDetermineField(DropField(f), f);
    }
    if DropField(f) == f {
      DropFieldSettles(f);
    }
  }

  /** Dropping twice is dropping once. */
  lemma DropFieldIdempotent(f: Field)
    requires WellFormed(f)
    ensures DropField(DropField(f)) == DropField(f)
  {
    DropFieldSettles(f);
    SettledIffFixed(DropField(f));
  }
}

=== FILE: groups.dfy ===
/** Group detection: a row-major scan of the field that flood-fills, with an
    explicit stack, every not-yet-visited puyo's same-coloured 4-connected
    region and keeps the regions of at least `min` cells. */
module Groups {
  import opened Board

  /** The four orthogonal neighbours of p, in the order the flood fill pushes
      them (so the last, the left neighbour, is popped first). */
  function Neighbors(p: Pos): seq<Pos> {
    [Pos(p.row + 1, p.col), Pos(p.row - 1, p.col), Pos(p.row, p.col + 1), Pos(p.row, p.col - 1)]
  }

  predicate Adjacent(p: Pos, q: Pos) {
    q in Neighbors(p)
  }

  lemma AdjacentSymmetric(p: Pos, q: Pos)
    ensures Adjacent(p, q) <==> Adjacent(q, p)
  {
  }

  /** Every listed cell is on the field and holds a puyo of colour c. */
  predicate AllOfColor(f: Field, g: seq<Pos>, c: Color)
    requires WellFormed(f)
  {
    forall q | q in g :: InBounds(q) && At(f, q) == Puyo(c)
  }

  predicate Distinct(g: seq<Pos>) {
    forall i, j | 0 <= i < j < |g| :: g[i] != g[j]
  }

  /** Cell i of g touches a cell listed before it. */
  predicate TouchesEarlier(g: seq<Pos>, i: int)
    requires 0 <= i < |g|
  {
    exists j | 0 <= j < i :: Adjacent(g[j], g[i])
  }

  /** Each cell after the first touches an earlier one, so the cells form one
      4-connected region. */
  predicate Chained(g: seq<Pos>) {
    forall i | 0 < i < |g| :: TouchesEarlier(g, i)
  }

  /** No puyo of the same colour as a member of s lies next to it outside s:
      s is a whole same-coloured region, not part of one. */
  predicate ClosedSet(f: Field, s: set<Pos>)
    requires WellFormed(f)
  {
    forall q, n {:trigger n in Neighbors(q), q in s} | q in s && n in Neighbors(q) ::
      InBounds(q) && InBounds(n) && At(f, n) == At(f, q) ==> n in s
  }

  /** The cells a sequence lists form a whole region. */
  predicate ClosedGroup(f: Field, g: seq<Pos>)
    requires WellFormed(f)
  {
    ClosedSet(f, Cells(g))
  }

  /** A group as the scan emits it: one colour, one connected region, no cell
      twice, nothing of its colour left next to it, at least min cells. */
  predicate IsGroup(f: Field, g: seq<Pos>, min: int)
    requires WellFormed(f)
  {
    && |g| >= 1
    && |g| >= min
    && InBounds(g[0]) && At(f, g[0]).Puyo?
    && AllOfColor(f, g, At(f, g[0]).color)
    && Distinct(g)
    && Chained(g)
    && ClosedGroup(f, g)
  }

  /** No cell belongs to two different groups. */
  predicate PairwiseDisjoint(gs: seq<seq<Pos>>) {
    forall i, j, q | 0 <= i < j < |gs| && q in gs[i] :: q !in gs[j]
  }

  /** Some group lists the cell q. */
  predicate InSomeGroup(groups: seq<seq<Pos>>, q: Pos) {
    exists i | 0 <= i < |groups| :: q in groups[i]
  }

  /** The cell q lies in a whole same-coloured region of fewer than min
      cells. */
  ghost predicate SmallRegion(f: Field, q: Pos, min: int)
    requires WellFormed(f)
  {
    exists h {:trigger IsGroup(f, h, 1)} | q in h :: IsGroup(f, h, 1) && |h| < min
  }

  function AllCells(): set<Pos> {
    set r, c | 0 <= r < FieldRows && 0 <= c < FieldCols :: Pos(r, c)
  }

  /** Every cell that is in visited' but not in visited is listed in group. */
  predicate AddedAreListed(visited: set<Pos>, visited': set<Pos>, group: seq<Pos>) {
    forall q {:trigger q in visited'} | q in visited' && q !in visited :: q in group
  }

  /** The entries of group from index n on are all outside visited. */
  predicate TailOutside(visited: set<Pos>, group: seq<Pos>, n: int) {
    forall i | 0 <= i < |group| && n <= i :: group[i] !in visited
  }

  /** Every stacked cell touches some cell of the group. */
  predicate StackTouches(stack: seq<Pos>, group: seq<Pos>) {
    forall k | 0 <= k < |stack| :: exists j | 0 <= j < |group| :: Adjacent(group[j], stack[k])
  }

  /** Every same-coloured neighbour of the group is visited or still stacked. */
  predicate FrontierCovered(f: Field, color: Color, stack: seq<Pos>, visited: set<Pos>, group: seq<Pos>)
    requires WellFormed(f)
  {
    forall q, n {:trigger n in Neighbors(q), q in group} | q in group && n in Neighbors(q) ::
      InBounds(n) && At(f, n) == Puyo(color) ==> n in visited || n in stack
  }

  /** What holds of the flood fill's state between two pops: the group so far
      is one connected region of the seed's colour, visited in full; every
      stacked cell touches the group; and every same-coloured neighbour of
      the group is visited or still stacked. */
  predicate FloodInv(f: Field, color: Color, stack: seq<Pos>, visited: set<Pos>, group: seq<Pos>)
    requires WellFormed(f)
  {
    && AllOfColor(f, group, color) && Distinct(group) && Chained(group)
    && (forall q | q in group :: q in visited)
    && (|group| == 0 ==> |stack| <= 1)
    && (|group| > 0 ==> StackTouches(stack, group))
    && FrontierCovered(f, color, stack, visited, group)
  }

  /** Popping a cell that is skipped keeps the invariant. */
  lemma FloodSkipStep(f: Field, color: Color, stack: seq<Pos>, visited: set<Pos>, group: seq<Pos>)
    requires WellFormed(f) && FloodInv(f, color, stack, visited, group) && |stack| > 0
    requires var p := stack[|stack| - 1]; !InBounds(p) || p in visited || At(f, p) != Puyo(color)
    ensures FloodInv(f, color, stack[..|stack| - 1], visited, group)
  {
    var p := stack[|stack| - 1];
    var rest := stack[..|stack| - 1];
    assert stack == rest + [p];
    forall q, n | q in group && n in Neighbors(q) && InBounds(n) && At(f, n) == Puyo(color)
      ensures n in visited || n in rest
    {
      if n !in visited {
        assert n in stack && n != p;
        var i :| 0 <= i < |stack| && stack[i] == n;
        assert i < |rest| && rest[i] == n;
      }
    }
    if |group| > 0 {
      forall k | 0 <= k < |rest|
        ensures exists j | 0 <= j < |group| :: Adjacent(group[j], rest[k])
      {
        assert rest[k] == stack[k];
      }
    }
  }

  /** Appending a cell that touches the group keeps it connected. */
  lemma ChainedAppend(group: seq<Pos>, p: Pos)
    requires Chained(group)
    requires |group| > 0 ==> exists j | 0 <= j < |group| :: Adjacent(group[j], p)
    ensures Chained(group + [p])
  {
    var group' := group + [p];
    forall i | 0 < i < |group'|
      ensures TouchesEarlier(group', i)
    {
      if i < |group| {
        assert TouchesEarlier(group, i);
        var j :| 0 <= j < i && Adjacent(group[j], group[i]);
        assert group'[j] == group[j] && group'[i] == group[i];
        assert Adjacent(group'[j], group'[i]);
      } else {
        var j :| 0 <= j < |group| && Adjacent(group[j], p);
        assert group'[j] == group[j] && group'[i] == p;
        assert Adjacent(group'[j], group'[i]);
      }
    }
  }

  /** After a visit the new stack still touches the grown group. */
  lemma StackTouchesAfterVisit(stack: seq<Pos>, group: seq<Pos>)
    requires |stack| > 0
    requires |group| == 0 ==> |stack| <= 1
    requires |group| > 0 ==> StackTouches(stack, group)
    ensures var p := stack[|stack| - 1];
      StackTouches(stack[..|stack| - 1] + Neighbors(p), group + [p])
  {
    var p := stack[|stack| - 1];
    var rest := stack[..|stack| - 1];
    var stack' := rest + Neighbors(p);
    var group' := group + [p];
    forall k | 0 <= k < |stack'|
      ensures exists j | 0 <= j < |group'| :: Adjacent(group'[j], stack'[k])
    {
      if k < |rest| {
        assert stack'[k] == stack[k];
        assert |group| > 0;
        var j :| 0 <= j < |group| && Adjacent(group[j], stack[k]);
        assert group'[j] == group[j];
        assert Adjacent(group'[j], stack'[k]);
      } else {
        assert stack'[k] == Neighbors(p)[k - |rest|];
        assert group'[|group|] == p;
        assert Adjacent(group'[|group|], stack'[k]);
      }
    }
  }

  /** After a visit every same-coloured neighbour of the grown group is still
      visited or stacked: the visited cell's own neighbours were pushed. */
  lemma FrontierAfterVisit(f: Field, color: Color, stack: seq<Pos>, visited: set<Pos>, group: seq<Pos>)
    requires WellFormed(f) && |stack| > 0
    requires FrontierCovered(f, color, stack, visited, group)
    ensures var p := stack[|stack| - 1];
      FrontierCovered(f, color, stack[..|stack| - 1] + Neighbors(p), visited + {p}, group + [p])
  {
    var p := stack[|stack| - 1];
    var rest := stack[..|stack| - 1];
    var stack' := rest + Neighbors(p);
    var group' := group + [p];
    assert stack == rest + [p];
    forall q, n | q in group' && n in Neighbors(q) && InBounds(n) && At(f, n) == Puyo(color)
      ensures n in visited + {p} || n in stack'
    {
      if q == p {
        assert n in stack';
      } else {
        assert q in group;
        if n !in visited && n != p {
          assert n in stack;
          assert n in rest;
        }
      }
    }
  }

  /** Popping a cell that is visited keeps the invariant. */
  lemma FloodVisitStep(f: Field, color: Color, stack: seq<Pos>, visited: set<Pos>, group: seq<Pos>)
    requires WellFormed(f) && FloodInv(f, color, stack, visited, group) && |stack| > 0
    requires var p := stack[|stack| - 1]; InBounds(p) && p !in visited && At(f, p) == Puyo(color)
    ensures var p := stack[|stack| - 1];
      FloodInv(f, color, stack[..|stack| - 1] + Neighbors(p), visited + {p}, group + [p])
  {
    var p := stack[|stack| - 1];
    var group' := group + [p];
    assert AllOfColor(f, group', color);
    assert Distinct(group');
    if |group| > 0 {
      assert stack[|stack| - 1] == p;
      assert exists j | 0 <= j < |group| :: Adjacent(group[j], p);
    }
    ChainedAppend(group, p);
    StackTouchesAfterVisit(stack, group);
    FrontierAfterVisit(f, color, stack, visited, group);
  }

  /** What a flood run reports about the cells it added, restated for the
      state before the visit that added p. */
  lemma FloodVisitLift(visited: set<Pos>, group: seq<Pos>, p: Pos, visited': set<Pos>, group': seq<Pos>)
    requires p !in visited
    requires |group'| >= |group + [p]| && group'[..|group + [p]|] == group + [p]
    requires visited + {p} <= visited'
    requires AddedAreListed(visited + {p}, visited', group')
    requires TailOutside(visited + {p}, group', |group + [p]|)
    ensures |group'| >= |group| && group'[..|group|] == group
    ensures visited <= visited'
    ensures AddedAreListed(visited, visited', group')
    ensures TailOutside(visited, group', |group|)
  {
    assert group'[|group|] == (group + [p])[|group|] == p;
    assert group'[..|group|] == (group + [p])[..|group|];
    forall q | q in visited' && q !in visited
      ensures q in group'
    {
      if q == p {
        assert group'[|group|] == p;
      }
    }
  }

  /** The flood fill from one seed: pop the top of the stack; skip it if it is
      off the field, already visited or of another colour; otherwise visit
      it, add it to the group and push its four neighbours. Returns the final
      visited set and group. */
  function Flood(f: Field, color: Color, stack: seq<Pos>, visited: set<Pos>, group: seq<Pos>)
    : (res: (set<Pos>, seq<Pos>))
    requires WellFormed(f)
    requires FloodInv(f, color, stack, visited, group)
    ensures |res.1| >= |group| && res.1[..|group|] == group
    ensures visited <= res.0
    ensures AddedAreListed(visited, res.0, res.1)
    ensures forall q | q in res.1 :: q in res.0
    ensures TailOutside(visited, res.1, |group|)
    ensures AllOfColor(f, res.1, color) && Distinct(res.1) && Chained(res.1)
    ensures forall q, n {:trigger n in Neighbors(q), q in res.1} | q in res.1 && n in Neighbors(q) :: InBounds(n) && At(f, n) == Puyo(color) ==> n in res.0
    decreases AllCells() - visited, |stack|
  {
    if |stack| == 0 then
      (visited, group)
    else
      var p := stack[|stack| - 1];
      var rest := stack[..|stack| - 1];
      if !InBounds(p) || p in visited || At(f, p) != Puyo(color) then
        FloodSkipStep(f, color, stack, visited, group);
        Flood(f, color, rest, visited, group)
      else
        assert p in AllCells();
        FloodVisitStep(f, color, stack, visited, group);
        var res := Flood(f, color, rest + Neighbors(p), visited + {p}, group + [p]);
        FloodVisitLift(visited, group, p, res.0, res.1);
        res
  }

  /** The cell the row-major scan looks at in step k. */
  function ScanCell(k: int): (p: Pos)
    requires 0 <= k < FieldRows * FieldCols
    ensures InBounds(p)
  {
    Pos(k / FieldCols, k % FieldCols)
  }

  /** Every visited cell is a puyo on the field, and the visited cells are a
      union of whole regions. */
  predicate VisitedOk(f: Field, visited: set<Pos>)
    requires WellFormed(f)
  {
    && (forall q | q in visited :: InBounds(q) && At(f, q).Puyo?)
    && ClosedSet(f, visited)
  }

  /** What holds between two steps of the scan, as far as completeness is
      concerned: besides the scan's own requirements, every puyo met before
      step k was visited, and every visited cell is in an emitted group or in
      a region too small to emit. */
  ghost predicate ScanInv(f: Field, min: int, k: int, visited: set<Pos>, groups: seq<seq<Pos>>)
    requires WellFormed(f) && 0 <= k <= FieldRows * FieldCols
  {
    && VisitedOk(f, visited)
    && (forall i | 0 <= i < |groups| :: IsGroup(f, groups[i], min))
    && (forall i, q | 0 <= i < |groups| && q in groups[i] :: q in visited)
    && PairwiseDisjoint(groups)
    && (forall j | 0 <= j < k :: At(f, ScanCell(j)).Puyo? ==> ScanCell(j) in visited)
    && (forall q | q in visited :: InSomeGroup(groups, q) || SmallRegion(f, q, min))
  }

  /** Every puyo on the field is in one of the groups or in a region too
      small to be one. */
  ghost predicate Accounted(f: Field, min: int, groups: seq<seq<Pos>>)
    requires WellFormed(f)
  {
    forall q {:trigger SmallRegion(f, q, min)} | InBounds(q) && At(f, q).Puyo? ::
      InSomeGroup(groups, q) || SmallRegion(f, q, min)
  }

  /** The scan's steps meet every cell of the field. */
  lemma ScanCoversAll(f: Field, min: int, visited: set<Pos>, groups: seq<seq<Pos>>)
    requires WellFormed(f) && ScanInv(f, min, FieldRows * FieldCols, visited, groups)
    ensures Accounted(f, min, groups)
  {
    forall q | InBounds(q) && At(f, q).Puyo?
      ensures q in visited
    {
      var j := q.row * FieldCols + q.col;
      assert ScanCell(j) == q;
    }
  }

  /** After one flood of the scan every visited cell is still in an emitted
      group or in a small region, and every group's cells are visited. */
  lemma FloodAccounted(f: Field, min: int, k: int, visited: set<Pos>, groups: seq<seq<Pos>>,
                       visited': set<Pos>, g: seq<Pos>, groups': seq<seq<Pos>>)
    requires WellFormed(f) && 0 <= k < FieldRows * FieldCols
    requires At(f, ScanCell(k)).Puyo? && ScanCell(k) !in visited
    requires ScanInv(f, min, k, visited, groups)
    requires (visited', g) == Flood(f, At(f, ScanCell(k)).color, [ScanCell(k)], visited, [])
    requires groups' == if |g| >= min then groups + [g] else groups
    ensures ScanInv(f, min, k + 1, visited', groups')
  {
    var p := ScanCell(k);
    FloodIsGroup(f, p, visited, visited', g);
    forall i | 0 <= i < |groups'|
      ensures IsGroup(f, groups'[i], min)
    {
      if i < |groups| {
        assert groups'[i] == groups[i];
      }
    }
    forall i, j, q | 0 <= i < j < |groups'| && q in groups'[i]
      ensures q !in groups'[j]
    {
      if j < |groups| {
        assert groups'[i] == groups[i] && groups'[j] == groups[j];
      } else {
        assert groups'[i] == groups[i] && groups'[j] == g;
        assert q in visited;
      }
    }
    forall j | 0 <= j < k + 1 && At(f, ScanCell(j)).Puyo?
      ensures ScanCell(j) in visited'
    {
      if j == k {
        assert p == g[0];
      }
    }
    assert visited <= visited' && AddedAreListed(visited, visited', g);
    forall q | q in visited'
      ensures InSomeGroup(groups', q) || SmallRegion(f, q, min)
    {
      if q in visited {
        if InSomeGroup(groups, q) {
          var i :| 0 <= i < |groups| && q in groups[i];
          assert groups'[i] == groups[i];
        }
      } else {
        assert q in g;
        if |g| >= min {
          assert groups'[|groups|] == g;
        } else {
          assert IsGroup(f, g, 1) && |g| < min;
        }
      }
    }
    forall i, q | 0 <= i < |groups'| && q in groups'[i]
      ensures q in visited'
    {
      if i < |groups| {
        assert groups'[i] == groups[i];
      }
    }
  }

  /** The row-major scan over cells k.. of the field. */
  function Scan(f: Field, min: int, k: int, visited: set<Pos>, groups: seq<seq<Pos>>): (res: seq<seq<Pos>>)
    requires WellFormed(f) && 0 <= k <= FieldRows * FieldCols
    requires ScanInv(f, min, k, visited, groups)
    ensures forall i | 0 <= i < |res| :: IsGroup(f, res[i], min)
    ensures PairwiseDisjoint(res)
    ensures Accounted(f, min, res)
    // Written with |f| rather than FieldRows so that the scan from the
    // literal start k = 0 is not unrolled cell by cell.
    decreases |f| * FieldCols - k
  {
    if k == FieldRows * FieldCols then
      ScanCoversAll(f, min, visited, groups);
      groups
    else
      var p := ScanCell(k);
      if At(f, p) == Empty || p in visited then
        Scan(f, min, k + 1, visited, groups)
      else
        var (visited', g) := Flood(f, At(f, p).color, [p], visited, []);
        var groups' := if |g| >= min then groups + [g] else groups;
        FloodAccounted(f, min, k, visited, groups, visited', g, groups');
        Scan(f, min, k + 1, visited', groups')
  }

  /** The flood from an unvisited puyo visits that puyo first. */
  lemma FloodStartsAtSeed(f: Field, p: Pos, visited: set<Pos>)
    requires WellFormed(f) && InBounds(p) && At(f, p).Puyo? && p !in visited
    ensures var g := Flood(f, At(f, p).color, [p], visited, []).1;
      |g| >= 1 && g[0] == p
  {
    var color := At(f, p).color;
    assert FloodInv(f, color, [p], visited, []);
    FloodVisitStep(f, color, [p], visited, []);
    assert [p][..0] + Neighbors(p) == Neighbors(p);
    assert [] + [p] == [p];
    var res := Flood(f, color, Neighbors(p), visited + {p}, [p]);
    assert Flood(f, color, [p], visited, []) == res;
    assert res.1[..1] == [p];
  }

  /** The flood's group is a whole region: no same-coloured neighbour of it is
      left out, since the visited cells before it were whole regions too. */
  lemma FloodClosed(f: Field, p: Pos, visited: set<Pos>)
    requires WellFormed(f) && InBounds(p) && At(f, p).Puyo? && p !in visited
    requires VisitedOk(f, visited)
    ensures var res := Flood(f, At(f, p).color, [p], visited, []);
      ClosedGroup(f, res.1) && VisitedOk(f, res.0)
  {
    var color := At(f, p).color;
    var res := Flood(f, color, [p], visited, []);
    var g := res.1;
    forall q | q in g
      ensures q !in visited
    {
      var i :| 0 <= i < |g| && g[i] == q;
    }
    forall q, n | q in g && n in Neighbors(q) && InBounds(q) && InBounds(n) && At(f, n) == At(f, q)
      ensures n in g
    {
      assert n in res.0;
      AdjacentSymmetric(q, n);
      assert q in Neighbors(n);
      assert q !in visited;
    }
    forall q, n | q in res.0 && n in Neighbors(q) && InBounds(q) && InBounds(n) && At(f, n) == At(f, q)
      ensures n in res.0
    {
      if q !in visited {
        assert q in g;
      }
    }
  }

  /** The flood from an unvisited puyo yields a group of at least one cell,
      made of cells not visited before, and keeps the visited set a union of
      whole regions. */
  lemma FloodIsGroup(f: Field, p: Pos, visited: set<Pos>, visited': set<Pos>, g: seq<Pos>)
    requires WellFormed(f) && InBounds(p) && At(f, p).Puyo? && p !in visited
    requires VisitedOk(f, visited)
    requires (visited', g) == Flood(f, At(f, p).color, [p], visited, [])
    ensures IsGroup(f, g, 1) && g[0] == p
    ensures forall q | q in g :: q !in visited
    ensures visited <= visited' && forall q | q in g :: q in visited'
    ensures VisitedOk(f, visited')
  {
    FloodStartsAtSeed(f, p, visited);
    FloodClosed(f, p, visited);
    forall q | q in g
      ensures q !in visited
    {
      var i :| 0 <= i < |g| && g[i] == q;
    }
  }

  /** The groups of a field: every same-coloured 4-connected region of at
      least min puyos. */
  function FindConnected(f: Field, min: int): (groups: seq<seq<Pos>>)
    requires WellFormed(f)
    ensures forall i | 0 <= i < |groups| :: IsGroup(f, groups[i], min)
    ensures PairwiseDisjoint(groups)
    ensures (forall p {:trigger At(f, p)} | InBounds(p) :: At(f, p) == Empty) ==> groups == []
    ensures Accounted(f, min, groups)
  {
    var groups := Scan(f, min, 0, {}, []);
    assert |groups| > 0 ==> IsGroup(f, groups[0], min);
    groups
  }

  /** A connected region g lies inside every whole region h it meets. */
  lemma RegionWithin(f: Field, g: seq<Pos>, h: seq<Pos>, k: int)
    requires WellFormed(f) && IsGroup(f, g, 1) && ClosedGroup(f, h)
    requires 0 <= k < |g| && g[k] in h
    ensures forall q | q in g :: q in h
  {
    RootWithin(f, g, h, k);
    forall i | 0 <= i < |g|
      ensures g[i] in h
    {
      PrefixWithin(f, g, h, i);
    }
  }

  /** Walking back along the chain from a cell of g inside h reaches g[0]. */
  lemma {:induction false} RootWithin(f: Field, g: seq<Pos>, h: seq<Pos>, k: int)
    requires WellFormed(f) && IsGroup(f, g, 1) && ClosedGroup(f, h)
    requires 0 <= k < |g| && g[k] in h
    ensures g[0] in h
    decreases k
  {
    if k > 0 {
      assert TouchesEarlier(g, k);
      var j :| 0 <= j < k && Adjacent(g[j], g[k]);
      AdjacentSymmetric(g[j], g[k]);
      assert g[j] in Neighbors(g[k]);
      assert g[j] in g && g[k] in g;
      RootWithin(f, g, h, j);
    }
  }

  /** Walking forward along the chain from g[0] inside h stays inside h. */
  lemma {:induction false} PrefixWithin(f: Field, g: seq<Pos>, h: seq<Pos>, i: int)
    requires WellFormed(f) && IsGroup(f, g, 1) && ClosedGroup(f, h)
    requires 0 <= i < |g| && g[0] in h
    ensures g[i] in h
    decreases i
  {
    if i > 0 {
      assert TouchesEarlier(g, i);
      var j :| 0 <= j < i && Adjacent(g[j], g[i]);
      PrefixWithin(f, g, h, j);
      assert g[j] in g && g[i] in g;
    }
  }

  /** The set of cells a sequence lists. */
  function Cells(g: seq<Pos>): (s: set<Pos>)
    ensures forall q :: q in s <==> q in g
  {
    set q | q in g
  }

  /** A sequence without repeats lists as many cells as it has entries. */
  lemma {:induction false} DistinctCells(g: seq<Pos>)
    requires Distinct(g)
    ensures |Cells(g)| == |g|
  {
    if |g| > 0 {
      DistinctCells(g[1..]);
      assert Cells(g) == {g[0]} + Cells(g[1..]);
      assert g[0] !in Cells(g[1..]);
    }
  }

  /** A sequence has at least as many entries as the cells it lists. */
  lemma {:induction false} CellsAtMost(g: seq<Pos>)
    ensures |Cells(g)| <= |g|
  {
    if |g| > 0 {
      CellsAtMost(g[1..]);
      assert Cells(g) == {g[0]} + Cells(g[1..]);
    }
  }

  /** Every same-coloured 4-connected region of at least min puyos is found:
      each of its cells lies in one of the groups. With the contract of
      FindConnected this makes the groups exactly the large regions. */
  lemma FindConnectedComplete(f: Field, min: int, g: seq<Pos>)
    requires WellFormed(f) && IsGroup(f, g, min)
    ensures forall q | q in g :: InSomeGroup(FindConnected(f, min), q)
  {
    forall q | q in g
      ensures InSomeGroup(FindConnected(f, min), q)
    {
      if !InSomeGroup(FindConnected(f, min), q) {
        assert InBounds(q) && At(f, q).Puyo?;
        assert SmallRegion(f, q, min);
        var h :| q in h && IsGroup(f, h, 1) && |h| < min;
        var k :| 0 <= k < |g| && g[k] == q;
        RegionWithin(f, g, h, k);
        assert Cells(g) <= Cells(h);
        assert Cells(h) == Cells(g) + (Cells(h) - Cells(g));
        DistinctCells(g);
        CellsAtMost(h);
        assert false;
      }
    }
  }
}

=== FILE: pairs.dfy ===
/** The falling pair: a parent puyo, a child puyo attached to one of its four
    sides, and the rules that move, rotate, spawn and land it. */
module Pairs {
  import opened Board

  /** rotation names the side of the parent the child sits on:
      0 above, 1 right, 2 below, 3 left. */
  datatype Pair = Pair(parent: Pos, child: Pos, parentColor: Color, childColor: Color, rotation: int)

  /** The pair's two cells, parent first. */
  function Positions(pair: Pair): seq<Pos> {
    [pair.parent, pair.child]
  }

  function Shift(p: Pos, dr: int, dc: int): Pos {
    Pos(p.row + dr, p.col + dc)
  }

  /** JavaScript's integer quotient, truncated toward zero. */
  function JsQuot(a: int, b: int): (q: int)
    requires b > 0
    ensures a >= 0 ==> q >= 0
    ensures a < 0 ==> q <= 0
  {
    if a >= 0 then a / b else -((-a) / b)
  }

  /** JavaScript's remainder, which truncates toward zero (so -3 % 4 is -3):
      smaller than b in magnitude and never of the opposite sign to a. */
  function JsRem(a: int, b: int): (r: int)
    requires b > 0
    ensures -b < r < b
    ensures a >= 0 ==> 0 <= r && r == a % b
    ensures a < 0 ==> r <= 0
  {
    if a >= 0 then a % b else -((-a) % b)
  }

  /** The remainder is a minus b times the truncated quotient. */
  lemma JsRemDivision(a: int, b: int)
    requires b > 0
    ensures a - JsRem(a, b) == b * JsQuot(a, b)
  {
  }

  /** These properties determine JsRem: any remainder of a by b with a whole
      quotient, below b in magnitude and of the sign of a, is JsRem. */
  lemma JsRemUnique(a: int, b: int, q: int, r: int)
    requires b > 0 && -b < r < b && a - r == b * q
    requires a >= 0 ==> r >= 0
    requires a < 0 ==> r <= 0
    ensures r == JsRem(a, b)
  {
    var r0, q0 := JsRem(a, b), JsQuot(a, b);
    JsRemDivision(a, b);
    var k := q - q0;
    assert b * q - b * q0 == b * k;
    if k > 0 {
      MultipleAtLeast(b, k);
    } else if k < 0 {
      MultipleAtLeast(b, -k);
    }
  }

  /** A positive multiple of b is at least b. */
  lemma {:induction false} MultipleAtLeast(b: int, k: int)
    requires b > 0 && k >= 1
    ensures b * k >= b
    decreases k
  {
    if k > 1 {
      MultipleAtLeast(b, k - 1);
      assert b * k == b * (k - 1) + b;
    }
  }

  /** Negating the dividend negates JavaScript's remainder. */
  lemma JsRemOdd(a: int, b: int)
    requires b > 0
    ensures JsRem(-a, b) == -JsRem(a, b)
  {
  }

  /** The rotation a rotate attempt moves to. */
  function NextRotation(rotation: int): int {
    JsRem(rotation + 1, 4)
  }

  /** Where the child sits relative to the parent for a rotation value, as
      (row delta, column delta); values outside 0..3 fall to the default
      branch, which is "above". */
  function Offset(rot: int): (d: (int, int))
    ensures -1 <= d.0 <= 1 && -1 <= d.1 <= 1
    ensures (d.0 == 0) != (d.1 == 0)
    ensures !(1 <= rot <= 3) ==> d == (-1, 0)
  {
    if rot == 1 then (0, 1)
    else if rot == 2 then (1, 0)
    else if rot == 3 then (0, -1)
    else (-1, 0)
  }

  /** Each rotation step turns the child's offset a quarter turn clockwise:
      above, right, below, left, and back to above. */
  lemma OffsetTurnsClockwise(rot: int)
    requires 0 <= rot < 4
    ensures Offset(NextRotation(rot)) == (Offset(rot).1, -Offset(rot).0)
  {
    assert NextRotation(rot) == (rot + 1) % 4;
  }

  /** The child sits on the side of the parent its rotation names. */
  predicate Consistent(pair: Pair) {
    pair.child == Shift(pair.parent, Offset(pair.rotation).0, Offset(pair.rotation).1)
  }

  /** A cell a puyo may occupy: on the field and empty. */
  predicate Free(f: Field, p: Pos)
    requires WellFormed(f)
  {
    InBounds(p) && At(f, p) == Empty
  }

  /** The placement test: every listed position is on the field and empty. */
  function CanMove(f: Field, ps: seq<Pos>): (ok: bool)
    requires WellFormed(f)
    ensures ok <==> forall i | 0 <= i < |ps| :: Free(f, ps[i])
  {
    |ps| == 0 || (Free(f, ps[0]) && CanMove(f, ps[1..]))
  }

  /** The placement test on the two cells of a pair. */
  lemma CanMoveTwo(f: Field, a: Pos, b: Pos)
    requires WellFormed(f)
    ensures CanMove(f, [a, b]) <==> Free(f, a) && Free(f, b)
  {
    assert [a, b][0] == a && [a, b][1] == b;
  }

  predicate Placeable(f: Field, pair: Pair)
    requires WellFormed(f)
  {
    CanMove(f, Positions(pair))
  }

  lemma PlaceableCells(f: Field, pair: Pair)
    requires WellFormed(f)
    ensures Placeable(f, pair) <==> Free(f, pair.parent) && Free(f, pair.child)
  {
    CanMoveTwo(f, pair.parent, pair.child);
  }

  /** A new pair at the top centre, child below parent; the two colours are
      drawn by the caller. */
  function CreatePuyoPair(parentColor: Color, childColor: Color): (pair: Pair)
    ensures pair.parent == Pos(0, FieldCols / 2) && pair.child == Pos(1, FieldCols / 2)
    ensures pair.parentColor == parentColor && pair.childColor == childColor
    ensures Consistent(pair) && 0 <= pair.rotation < 4
  {
    Pair(Pos(0, FieldCols / 2), Pos(1, FieldCols / 2), parentColor, childColor, 2)
  }

  /** Both cells shifted by (dr, dc) if that placement is legal, else the pair
      as it was: a move never half-happens. */
  function MovePair(pair: Pair, f: Field, dr: int, dc: int): (r: Pair)
    requires WellFormed(f)
    ensures r.parentColor == pair.parentColor && r.childColor == pair.childColor
    ensures r.rotation == pair.rotation
    ensures CanMove(f, [Shift(pair.parent, dr, dc), Shift(pair.child, dr, dc)]) ==>
              r.parent == Shift(pair.parent, dr, dc) && r.child == Shift(pair.child, dr, dc)
    ensures !CanMove(f, [Shift(pair.parent, dr, dc), Shift(pair.child, dr, dc)]) ==> r == pair
    ensures Placeable(f, pair) ==> Placeable(f, r)
    ensures Consistent(pair) ==> Consistent(r)
  {
    var moved := [Shift(pair.parent, dr, dc), Shift(pair.child, dr, dc)];
    if CanMove(f, moved) then
      var r := pair.(parent := moved[0], child := moved[1]);
      PlaceableCells(f, r);
      CanMoveTwo(f, moved[0], moved[1]);
      r
    else pair
  }

  /** Moving back undoes a successful move. */
  lemma MoveBack(pair: Pair, f: Field, dr: int, dc: int)
    requires WellFormed(f) && Placeable(f, pair)
    ensures var m := MovePair(pair, f, dr, dc); m != pair ==> MovePair(m, f, -dr, -dc) == pair
  {
    var m := MovePair(pair, f, dr, dc);
    if m != pair {
      PlaceableCells(f, pair);
      CanMoveTwo(f, pair.parent, pair.child);
      CanMoveTwo(f, Shift(pair.parent, dr, dc), Shift(pair.child, dr, dc));
      assert m.parent == Shift(pair.parent, dr, dc) && m.child == Shift(pair.child, dr, dc);
      assert Shift(m.parent, -dr, -dc) == pair.parent && Shift(m.child, -dr, -dc) == pair.child;
      var back := MovePair(m, f, -dr, -dc);
      assert back.parent == pair.parent && back.child == pair.child;
    }
  }

  /** The pair after one clockwise rotation attempt. The child moves to the
      side named by the next rotation value with the parent fixed; if that is
      blocked the rotated pair is tried one column left, then one column
      right; if all three are blocked the pair is unchanged. */
  function RotatePair(pair: Pair, f: Field): (r: Pair)
    requires WellFormed(f)
    ensures r.parentColor == pair.parentColor && r.childColor == pair.childColor
    ensures r == pair || (r.rotation == NextRotation(pair.rotation) && Consistent(r) && Placeable(f, r))
    ensures r.parent.row == pair.parent.row
    ensures -1 <= r.parent.col - pair.parent.col <= 1
    ensures Consistent(pair) ==> Consistent(r)
    ensures Placeable(f, pair) ==> Placeable(f, r)
    ensures 0 <= pair.rotation < 4 ==> 0 <= r.rotation < 4
  {
    var rot := NextRotation(pair.rotation);
    var (dr, dc) := Offset(rot);
    var newChild := Shift(pair.parent, dr, dc);
    CanMoveTwo(f, pair.parent, newChild);
    CanMoveTwo(f, Shift(pair.parent, 0, -1), Shift(newChild, 0, -1));
    CanMoveTwo(f, Shift(pair.parent, 0, 1), Shift(newChild, 0, 1));
    PlaceableCells(f, pair);
    PlaceableCells(f, pair.(child := newChild, rotation := rot));
    PlaceableCells(f, pair.(parent := Shift(pair.parent, 0, -1), child := Shift(newChild, 0, -1), rotation := rot));
    PlaceableCells(f, pair.(parent := Shift(pair.parent, 0, 1), child := Shift(newChild, 0, 1), rotation := rot));
    if CanMove(f, [pair.parent, newChild]) then
      pair.(child := newChild, rotation := rot)
    else if CanMove(f, [Shift(pair.parent, 0, -1), Shift(newChild, 0, -1)]) then
      pair.(parent := Shift(pair.parent, 0, -1), child := Shift(newChild, 0, -1), rotation := rot)
    else if CanMove(f, [Shift(pair.parent, 0, 1), Shift(newChild, 0, 1)]) then
      pair.(parent := Shift(pair.parent, 0, 1), child := Shift(newChild, 0, 1), rotation := rot)
    else
      pair
  }

  /** The pair rotated with its parent fixed, then kicked one column left,
      then one column right: the three placements a rotation tries, in order. */
  function RotationCandidates(pair: Pair): (cs: seq<Pair>)
    ensures |cs| == 3
  {
    var rot := NextRotation(pair.rotation);
    var (dr, dc) := Offset(rot);
    seq(3, k requires 0 <= k < 3 =>
      var kick := [0, -1, 1][k];
      pair.(parent := Shift(pair.parent, 0, kick), child := Shift(pair.parent, dr, dc + kick), rotation := rot))
  }

  /** The first of the candidates that can be placed, or the fallback. */
  function FirstPlaceable(f: Field, cs: seq<Pair>, fallback: Pair): (r: Pair)
    requires WellFormed(f)
    ensures r == fallback || r in cs
  {
    if |cs| == 0 then fallback
    else if Placeable(f, cs[0]) then cs[0]
    else FirstPlaceable(f, cs[1..], fallback)
  }

  /** A rotation attempt yields the first of its candidates that can be
      placed, or the pair itself when none can. */
  lemma RotateTakesFirstPlaceable(pair: Pair, f: Field)
    requires WellFormed(f)
    ensures RotatePair(pair, f) == FirstPlaceable(f, RotationCandidates(pair), pair)
  {
    var cs := RotationCandidates(pair);
    var rot := NextRotation(pair.rotation);
    var (dr, dc) := Offset(rot);
    var newChild := Shift(pair.parent, dr, dc);
    assert cs[0] == pair.(child := newChild, rotation := rot);
    assert cs[1] == pair.(parent := Shift(pair.parent, 0, -1), child := Shift(newChild, 0, -1), rotation := rot);
    assert cs[2] == pair.(parent := Shift(pair.parent, 0, 1), child := Shift(newChild, 0, 1), rotation := rot);
    assert cs[1..][1..] == [cs[2]];
    CanMoveTwo(f, pair.parent, newChild);
    CanMoveTwo(f, Shift(pair.parent, 0, -1), Shift(newChild, 0, -1));
    CanMoveTwo(f, Shift(pair.parent, 0, 1), Shift(newChild, 0, 1));
    PlaceableCells(f, cs[0]);
    PlaceableCells(f, cs[1]);
    PlaceableCells(f, cs[2]);
    assert FirstPlaceable(f, cs[2..], pair) == if Placeable(f, cs[2]) then cs[2] else pair;
    assert FirstPlaceable(f, cs[1..], pair) == if Placeable(f, cs[1]) then cs[1] else FirstPlaceable(f, cs[2..], pair);
  }

  /** With the parent's cell and the cell the child rotates into both free,
      a rotation keeps the parent fixed and turns the child one step. */
  lemma RotateInPlace(pair: Pair, f: Field)
    requires WellFormed(f) && Free(f, pair.parent)
    requires Free(f, Shift(pair.parent, Offset(NextRotation(pair.rotation)).0, Offset(NextRotation(pair.rotation)).1))
    ensures RotatePair(pair, f).parent == pair.parent
    ensures RotatePair(pair, f).rotation == NextRotation(pair.rotation)
    ensures Consistent(RotatePair(pair, f))
  {
  }

  /** Rotating four times with nothing around the parent brings the pair back
      exactly where it started. */
  lemma FourRotationsRestore(pair: Pair, f: Field)
    requires WellFormed(f) && Consistent(pair) && 0 <= pair.rotation < 4
    requires Free(f, pair.parent)
    requires forall k | 0 <= k < 4 :: Free(f, Shift(pair.parent, Offset(k).0, Offset(k).1))
    ensures RotatePair(RotatePair(RotatePair(RotatePair(pair, f), f), f), f) == pair
  {
    var p1 := RotatePair(pair, f);
    var p2 := RotatePair(p1, f);
    var p3 := RotatePair(p2, f);
    RotateInPlace(pair, f);
    RotateInPlace(p1, f);
    RotateInPlace(p2, f);
    RotateInPlace(p3, f);
  }

  /** Game over: the pair cannot be placed where it stands. */
  function IsGameOver(f: Field, pair: Pair): (over: bool)
    requires WellFormed(f)
    ensures over <==> !Free(f, pair.parent) || !Free(f, pair.child)
  {
    PlaceableCells(f, pair);
    !CanMove(f, Positions(pair))
  }

  /** A freshly spawned pair is blocked exactly when one of the two spawn cells
      at the top centre is occupied. */
  lemma SpawnBlocked(f: Field, parentColor: Color, childColor: Color)
    requires WellFormed(f)
    ensures IsGameOver(f, CreatePuyoPair(parentColor, childColor)) <==>
              At(f, Pos(0, FieldCols / 2)) != Empty || At(f, Pos(1, FieldCols / 2)) != Empty
  {
  }

  /** The field with the landed pair written into it: the parent's colour at the
      parent's cell, then the child's colour at the child's cell. */
  function FixPairToField(f: Field, pair: Pair): (g: Field)
    requires WellFormed(f) && InBounds(pair.parent) && InBounds(pair.child)
    ensures WellFormed(g)
    ensures At(g, pair.child) == Puyo(pair.childColor)
    ensures pair.parent != pair.child ==> At(g, pair.parent) == Puyo(pair.parentColor)
    ensures forall q {:trigger At(g, q)} | InBounds(q) && q != pair.parent && q != pair.child :: At(g, q) == At(f, q)
    ensures Placeable(f, pair) && Consistent(pair) ==> Count(g) == Count(f) + 2
  {
    var g := Set(f, pair.parent, Puyo(pair.parentColor));
    PlaceableCells(f, pair);
    if Placeable(f, pair) && Consistent(pair) then
      PlaceOneCount(f, pair.parent, pair.parentColor);
      PlaceOneCount(g, pair.child, pair.childColor);
      Set(g, pair.child, Puyo(pair.childColor))
    else
      Set(g, pair.child, Puyo(pair.childColor))
  }
}
